=== FILE: README.md ===
# MessageBusTestingApp in Dafny

A model of the message-handling core of MessageBusTestingApp. This console application sends test messages over RabbitMQ, Azure Service Bus and NServiceBus, in three patterns: send-only, send-and-reply with wait, and send-and-reply without wait. It covers:

- **Fault injection.** `ExceptionMessageHandler` and `RectangularPrismRequestHandler` throw until the delivery attempt reaches the message's `SucceedOn`. A `SucceedOn` of 0 or less never succeeds.
- **Delivery counting.** RabbitMQ and NServiceBus do not report a delivery count, so their receivers keep a map from MessageId to the next attempt number. The ceiling is 10.
  - The RabbitMQ receiver shares one map between its two consumers.
  - Each NServiceBus handler class keeps its own static map.
  - The Azure receiver reads the broker's `DeliveryCount` instead.
- **What each receiver does with a delivery.** It acks, nacks with requeue or completes the message, publishes a reply to the requester, or lets an exception escape. At the ceiling a prism request gets the terminal `ExceptionResponse` "No response found for: RectangularPrismResponse!".
- **The Azure sender.**
  - Where each request goes.
  - The session that ties a reply to its request.
  - The order of steps in a wait-mode call.
  - How a wait-mode call reads its reply.
  - The no-wait `ResponseHandler`, which completes a reply only when its body deserializes to an object.
- **`EnumUtils` attribute lookups and the console `Menu`.** The menu's items come from the display names. Up and Down move the selection with wrap-around, and Enter selects.

Modules, one per file:

- `Common`: Option, Result, the outcome of JSON deserialization, and handler faults.
- `Messages`: payloads, type tags and replies.
- `Handlers`: the transport-independent handlers.
- `DeliveryCounts`: the counter.
- `EnumUtils`.
- `ConsoleMenu`.
- `RabbitMQReceiver`.
- `NServiceBusReceiver`.
- `ServiceBus`: queues and Azure message shapes.
- `AzureServiceBusReceiver`.
- `AzureServiceBusSender`.

Modelling conventions:

- **Deserialization.** `System.Text.Json` throws on malformed text and returns null only for the JSON literal `null`. The model therefore reads each body as `Parsed(x) | JsonNull | Malformed`, once per payload type.
- **Side effects.** Acks, publications, completions and escaping exceptions are returned as values.
- **Session ids.** A session id (a fresh GUID in the code) is a parameter.

In these places the code behaves as follows:

- **Ceiling before threshold.** Every counting receiver checks the ceiling before the handler runs, so the shared verdict `Handlers.Evaluate` tests exhaustion first.
- **RabbitMQ exception message at the ceiling.** It is returned from without an ack, so the model leaves it unsettled rather than acked.
- **Azure has no ceiling check.** The handler always runs. The terminal reply is sent only on a no-wait prism request whose `DeliveryCount` is exactly 10 and whose handler throws, and the exception is rethrown afterwards.
- **SucceedOn = 10 differs by transport.** At attempt 10, Azure answers such a request with its geometry, while RabbitMQ and NServiceBus answer with the terminal reply.
- **Type tags.** The `MessageType` enum in this snapshot lacks the Wait/NoWait request tags and `ExceptionResponse` that the services use. These tags are taken from the call sites and assumed to equal their names, as every tag in the enum does.
- **Azure reply subjects.** The Azure response mappers set no Subject, yet the sender dispatches replies on Subject. The model gives each reply its type tag as Subject and its request's SessionId.

## Model

| member | source | states |
|---|---|---|
| Handlers.HandleExceptionMessage | Services/Handlers/ExceptionMessageHandler.cs:19-36 | A null message returns false. The handler throws, with the message's text, exactly when SucceedOn <= 0 or the attempt is below SucceedOn. It returns true exactly when 1 <= SucceedOn <= attempt. |
| Handlers.NonPositiveSucceedOnAlwaysThrows | Services/Handlers/ExceptionMessageHandler.cs:27-31 | A message with SucceedOn <= 0 throws on every attempt. |
| Handlers.SucceedsExactlyFromAttemptN | Services/Handlers/ExceptionMessageHandler.cs:27-35 | With SucceedOn = N >= 1, attempts below N throw and attempts from N on return true. |
| Handlers.SuccessIsMonotone | Services/Handlers/ExceptionMessageHandler.cs:27-35 | Once an attempt succeeds, every later attempt succeeds. |
| Handlers.HandleRectangularPrismRequest | Services/Handlers/RectangularPrismRequestHandler.cs:19-44 | A null request gives a null response. The handler throws under the same condition as the exception handler. Otherwise it returns surface area 2(ab+ac+bc) and volume abc. |
| Handlers.HandlersShareThreshold | Services/Handlers/RectangularPrismRequestHandler.cs:27-31 | The two fault-injecting handlers throw on exactly the same attempts, with the same text. |
| Handlers.ResponseIndependentOfAttempt | Services/Handlers/RectangularPrismRequestHandler.cs:35-43 | Any two successful attempts give the same response. |
| Handlers.AcceptsDecoded | Services/Handlers/AdvancedMessageHandler.cs:16-26 | The advanced-message, prism-response, timeout-response and exception-response handlers accept a body exactly when it is non-null. |
| Handlers.HandleProcessTimeoutRequest | Services/Handlers/ProcessTimeoutRequestHandler.cs:16-32 | A response exists exactly for a non-null request, and it echoes the request's process name. |
| Handlers.Evaluate | Services/Services/RabbitMQReceiverService.cs:193-214 | Exhausted exactly at attempt >= ceiling. Succeed exactly below the ceiling with 1 <= SucceedOn <= attempt. Retryable otherwise. |
| Handlers.SuccessOnAttemptN | Services/Services/RabbitMQReceiverService.cs:193-216 | With 1 <= N below the ceiling, attempts 1..N-1 are retryable and attempt N succeeds. |
| Handlers.NeverSucceedsIsExhaustedAtCeiling | Services/Services/RabbitMQReceiverService.cs:193-216 | With SucceedOn <= 0, every attempt below the ceiling is retryable and the ceiling attempt is exhausted. |
| DeliveryCounts.Observe | Services/Services/RabbitMQReceiverService.cs:146-150 | First sight reports 1, otherwise the stored count. The stored count becomes the reported one plus one. Other ids are untouched, and counts stay >= 1. |
| DeliveryCounts.ObserveAllReportsOccurrences | Services/Services/RabbitMQReceiverService.cs:187-191 | In any interleaving, each observation reports the id's next count in the starting map plus the number of earlier observations of the same id. From the service's initially empty map, the attempts per id run 1, 2, 3, ... |
| DeliveryCounts.ObserveAllFinalCounts | Services/Services/RabbitMQReceiverService.cs:187-191 | After a run, every id seen is stored with its next attempt number: its starting value plus its occurrences. |
| DeliveryCounts.ObserveAllLeavesOthers | Services/Services/RabbitMQReceiverService.cs:187-191 | Ids not observed keep their presence and count. |
| EnumUtils.FieldIndex | Utils/EnumUtils.cs:58-62 | The field a value resolves to is the first declared field with that value. There is none exactly when no field has the value. |
| EnumUtils.GetAttribute | Utils/EnumUtils.cs:54-65 | ArgumentException exactly for an undefined value. Otherwise the resolved field's attribute, null when missing. |
| EnumUtils.GetAttributeText | Utils/EnumUtils.cs:20-41 | GetConfigurationName, GetMenuDisplayName and GetDescription: ArgumentException exactly for an undefined value. A missing attribute reads as "", and a present one verbatim. |
| EnumUtils.LookupOfFieldValue | Utils/EnumUtils.cs:20-65 | Looking up a field's own value, when it is the first field with that value, yields that field's attribute text, or "" when it has none. |
| EnumUtils.LookupsShareOneField | Utils/EnumUtils.cs:20-65 | A defined value's description, display name and configuration name never throw, and all three come from one field carrying that value, even when several fields carry it. |
| EnumUtils.GetValueFromMenuDisplayName | Utils/EnumUtils.cs:76-85 | Null exactly when no field displays the name. Otherwise the value of the first field, in declaration order, that does. |
| EnumUtils.DisplayNameRoundTrip | Utils/EnumUtils.cs:31-85 | With distinct display names, the reverse lookup of a value's display name yields that value. |
| EnumUtils.ConfigurationNameTestBasic | Utils.Tests/EnumUtilsTests.cs:12-15 | The basic GetConfigurationName expectations on TestEnumA. |
| EnumUtils.MenuDisplayNameTestBasic | Utils.Tests/EnumUtilsTests.cs:26-29 | The basic GetMenuDisplayName expectations on TestEnumA. |
| EnumUtils.CastValueTests | Utils.Tests/EnumUtilsTests.cs:18-33 | Value 0 cast to TestEnumB resolves to TypeB1's attributes. Value 1 throws ArgumentException. |
| ConsoleMenu.MenuItemsFrom | Services/Data/Menu.cs:22-26 | The items are exactly the non-empty display names, no more of them than there are values. |
| ConsoleMenu.ItemIndices | Services/Data/Menu.cs:22-26 | The indices of the values with a non-empty display name: strictly increasing, and none missing. |
| ConsoleMenu.MenuItemsFollowIndices | Services/Data/Menu.cs:22-26 | Item j is the display name of the j-th such value, so the items keep declaration order and a name two values share is listed twice. |
| ConsoleMenu.NewMenu | Services/Data/Menu.cs:17-30 | The first item is selected. Item j is the display name of the j-th value with a non-empty one, and "Exit" comes last when asked for. No item is empty. |
| ConsoleMenu.NewMenuItems | Services/Data/Menu.cs:17-30 | An item is listed exactly when some value displays it or it is the requested Exit item. |
| ConsoleMenu.Remainder | Services/Data/Menu.cs:84 | C#'s truncating `%`: the mathematical remainder for a non-negative dividend, and a value in (-n, 0] for a negative one. |
| ConsoleMenu.Move | Services/Data/Menu.cs:77-85 | Down on an empty menu divides by zero and nothing else fails. Items never change, other keys change nothing, and a valid selection stays valid. |
| ConsoleMenu.UpWrapsAround | Services/Data/Menu.cs:77-81 | Up from the first item goes to the last, otherwise up one. |
| ConsoleMenu.DownWrapsAround | Services/Data/Menu.cs:82-85 | Down from the last item goes to the first, otherwise down one. |
| ConsoleMenu.DownUndoesUp | Services/Data/Menu.cs:77-85 | Up then Down restores the selection. |
| ConsoleMenu.UpUndoesDown | Services/Data/Menu.cs:77-85 | Down then Up restores the selection. |
| ConsoleMenu.Select | Services/Data/Menu.cs:89 | Enter fails with ArgumentOutOfRange exactly when the selection is out of range. Otherwise it yields the reverse lookup of the selected item. |
| ConsoleMenu.HandleMenuMovement | Services/Data/Menu.cs:67-90 | The key loop computes the key-by-key semantics. A chosen value is the reverse lookup of a valid selection over the unchanged items. |
| ConsoleMenu.NavigationStaysInRange | Services/Data/Menu.cs:67-90 | On a non-empty menu no key sequence throws, and the selection stays in range. |
| ConsoleMenu.EmptyMenuThrows | Services/Data/Menu.cs:78-89 | On an empty menu, whatever the selection, Down throws DivideByZero and Enter throws ArgumentOutOfRange. |
| ConsoleMenu.ExitItemChoice | Services/Data/Menu.cs:28-29 | Choosing Exit yields the reverse lookup of "Exit", which is null unless some value displays "Exit". |
| RabbitMQReceiver.ExceptionMessageDelivery | Services/Services/RabbitMQReceiverService.cs:140-168 | A malformed body is nacked with requeue and the count is untouched. Otherwise the attempt is counted. Nothing is published and nothing escapes. |
| RabbitMQReceiver.MessageHandler | Services/Services/RabbitMQReceiverService.cs:113-170 | Never publishes. Only exception messages touch the count. Only the three send-only types are ever acked. A delivery of any other type is left unsettled. |
| RabbitMQReceiver.SendOnlyAcks | Services/Services/RabbitMQReceiverService.cs:119-139 | Simple messages are acked. An advanced message is acked when it deserializes to an object, left unsettled when its body is null, and throws out of the callback when its body is malformed. Neither touches the count. |
| RabbitMQReceiver.ExceptionMessageSettlement | Services/Services/RabbitMQReceiverService.cs:142-167 | Every attempt is counted. The message is unsettled at the ceiling or when null. It is nacked exactly when the handler throws below the ceiling, and acked exactly on success below it. |
| RabbitMQReceiver.PrismRequestDelivery | Services/Services/RabbitMQReceiverService.cs:181-239 | A malformed body is nacked and the count is untouched. Otherwise the attempt is counted. At the ceiling the terminal ExceptionResponse goes to ReplyTo and the message is acked, even when the body is null. Nothing escapes. |
| RabbitMQReceiver.RequestHandler | Services/Services/RabbitMQReceiverService.cs:177-264 | Every reply goes to ReplyTo, typed by its payload, and comes with an ack. Every ack comes with a reply. Only prism requests touch the count. A delivery of any other type is left unsettled, with nothing published. |
| RabbitMQReceiver.TimeoutRequestReplies | Services/Services/RabbitMQReceiverService.cs:240-263 | A process-timeout request is answered on ReplyTo with its own process name, then acked. A null body is left unsettled. A malformed body throws out of the callback. The count is untouched. |
| RabbitMQReceiver.PrismRequestFollowsVerdict | Services/Services/RabbitMQReceiverService.cs:187-232 | A decoded prism request is settled by the verdict: success publishes the geometry and acks, a retryable failure nacks with requeue, and exhaustion publishes the terminal reply and acks. |
| RabbitMQReceiver.NullPrismRequestUnsettled | Services/Services/RabbitMQReceiverService.cs:214-216 | A null prism request below the ceiling is left unsettled with nothing published. |
| RabbitMQReceiver.ReceiveAllIsOneTracker | Services/Services/RabbitMQReceiverService.cs:27-36 | Whatever the interleaving of deliveries to the two consumers, the shared map equals one tracker fed the counted MessageIds in order. |
| RabbitMQReceiver.RedeliveryNumbersAttempts | Services/Services/RabbitMQReceiverService.cs:187-191 | The k-th redelivery of a request is attempt k+1. |
| RabbitMQReceiver.SucceedOnAttemptN | Services/Services/RabbitMQReceiverService.cs:187-232 | A request with SucceedOn = N below the ceiling is nacked on deliveries 1..N-1 and answered with its geometry on delivery N. |
| RabbitMQReceiver.NeverSucceedsGetsTerminalReply | Services/Services/RabbitMQReceiverService.cs:187-237 | A request that never succeeds is nacked on deliveries 1..9 and answered with the terminal ExceptionResponse on delivery 10. |
| NServiceBusReceiver.ExceptionMessageHandler | Services/Services/NServiceBusReceiverService.cs:113-141 | Each call counts the attempt in the class's own map. It fails, with retry policy ImmediateRetry, exactly below the ceiling when the handler's threshold is not reached. It never replies. |
| NServiceBusReceiver.RectangularPrismRequestHandler | Services/Services/NServiceBusReceiverService.cs:147-179 | Counts the attempt in its own map. By the verdict, it replies with the geometry, fails with ImmediateRetry, or replies with the terminal ExceptionResponse. |
| NServiceBusReceiver.Handle | Services/Services/NServiceBusReceiverService.cs:74-195 | Each handler class touches only its own map. Every failure is an exception or prism message and carries ImmediateRetry. Simple and advanced messages complete without a reply and leave both maps alone. |
| NServiceBusReceiver.TimeoutRequestReplies | Services/Services/NServiceBusReceiverService.cs:185-194 | A process-timeout request is answered with its own process name and touches no map. |
| NServiceBusReceiver.RetriesNumberAttempts | Services/Services/NServiceBusReceiverService.cs:119-134 | Immediate retries of one message number its attempts 1, 2, 3, ... in its handler's map, and leave the other handler's map untouched. |
| NServiceBusReceiver.ExceptionMessageRetriesUntilCompletion | Services/Services/NServiceBusReceiverService.cs:126-141 | An exception message fails on every attempt before min(SucceedOn, 10), where 10 also stands for SucceedOn <= 0, and completes on that attempt. |
| NServiceBusReceiver.PrismRequestRetriesUntilReply | Services/Services/NServiceBusReceiverService.cs:160-179 | Under immediate retries, a prism request with 1 <= SucceedOn < 10 fails on earlier attempts and is answered with its geometry on attempt SucceedOn. One that never succeeds in time fails until attempt 10 and is answered with the terminal ExceptionResponse. |
| AzureServiceBusReceiver.MessageHandler | Services/Services/AzureServiceBusReceiverService.cs:88-113 | Never sends. Completion implies nothing escaped. Simple messages are always completed. |
| AzureServiceBusReceiver.MessageHandlerCompletes | Services/Services/AzureServiceBusReceiverService.cs:94-112 | Completed exactly for simple messages, advanced messages that decode, and exception messages with 1 <= SucceedOn <= DeliveryCount. An exception escapes exactly on a malformed body or a simulated failure. |
| AzureServiceBusReceiver.OneWayMessagesAreRecognised | Services/Services/AzureServiceBusSenderService.cs:41-45 | Every subject the sender's send-only calls use is dispatched by the receiver. A well-formed message is completed unless it is an exception message below its SucceedOn. |
| AzureServiceBusReceiver.PrismRequest | Services/Services/AzureServiceBusReceiverService.cs:125-156 | Any reply is in the request's session. The message is completed exactly when it is answered and nothing escapes. A malformed body throws a JSON exception with nothing sent. |
| AzureServiceBusReceiver.TimeoutRequest | Services/Services/AzureServiceBusReceiverService.cs:157-174 | Any reply is in the request's session. The message is completed exactly when it is answered. A malformed body throws a JSON exception with nothing sent. |
| AzureServiceBusReceiver.RequestHandler | Services/Services/AzureServiceBusReceiverService.cs:121-177 | Replies go to a sender queue in the request's session. A completed message let nothing escape. A message with none of the four request subjects is completed with nothing sent. A request whose body is malformed throws before anything is sent and is not completed. |
| AzureServiceBusReceiver.PrismRequestOutcome | Services/Services/AzureServiceBusReceiverService.cs:131-156 | A decoded prism request fails with its text, and the terminal reply accompanies the failure exactly on a no-wait request's 10th delivery. Otherwise it is answered with its geometry on the queue its subject selects, then completed. |
| AzureServiceBusReceiver.NullPrismRequestIsLeft | Services/Services/AzureServiceBusReceiverService.cs:145-147 | A null prism request is neither answered nor completed, and nothing escapes. |
| AzureServiceBusReceiver.NullTimeoutRequestIsLeft | Services/Services/AzureServiceBusReceiverService.cs:163-165 | A null process-timeout request is neither answered nor completed, and nothing escapes. |
| AzureServiceBusReceiver.NoWaitPrismFollowsVerdict | Services/Services/AzureServiceBusReceiverService.cs:131-155 | A no-wait prism request on deliveries 1..10 matches the shared verdict. At the ceiling it gets the terminal reply unless the handler succeeds there. |
| AzureServiceBusReceiver.WaitPrismNeverSendsTerminalReply | Services/Services/AzureServiceBusReceiverService.cs:138-139 | A wait-mode prism request is only ever answered with a prism response. |
| AzureServiceBusReceiver.TimeoutRequestOutcome | Services/Services/AzureServiceBusReceiverService.cs:157-176 | A decoded timeout request is answered with its process name, in its session and on the queue its subject selects, then completed. |
| AzureServiceBusSender.ResponseHandler | Services/Services/AzureServiceBusSenderService.cs:123-150 | A reply of a known type is completed exactly when its body decodes to an object. Other subjects are completed. A malformed reply of a known type throws a JSON exception, and no other error escapes. |
| AzureServiceBusSender.SendOneWay | Services/Services/AzureServiceBusSenderService.cs:41-45 | Send-only messages go to the send-only queue, each under its own kind's type tag. |
| AzureServiceBusSender.SendAndReply | Services/Services/AzureServiceBusSenderService.cs:47-95 | A no-wait call only sends to the no-wait receiver queue. A wait call accepts the reply session before sending, then sends, then waits 10 s for a prism or the default wait for a timeout. Request and reply session share one id. |
| AzureServiceBusSender.SentRequest | Services/Services/AzureServiceBusSenderService.cs:49-50 | The request travels in the call's session under its Wait or NoWait subject. |
| AzureServiceBusSender.AwaitRectangularPrismReply | Services/Services/AzureServiceBusSenderService.cs:62-75 | No reply, a null body and a decoded response are three distinct outcomes. The response is the decoded one. |
| AzureServiceBusSender.AwaitProcessTimeoutReplyAsWritten | Services/Services/AzureServiceBusSenderService.cs:95-101 | A missing reply throws NullReferenceException. Otherwise it behaves like the corrected wait. |
| AzureServiceBusSender.MissingTimeoutReplyThrows | Services/Services/AzureServiceBusSenderService.cs:62-96 | With no reply, the timeout wait throws where the prism wait reports "no response". |
| AzureServiceBusSender.AwaitProcessTimeoutReply | Services/Services/AzureServiceBusSenderService.cs:95-101 | With a null check: a missing reply or null body reports "no response", a decoded one yields its process name, and only JSON errors escape. |
| AzureServiceBusSender.CorrectedTimeoutAwaitNeverThrowsNullReference | Services/Services/AzureServiceBusSenderService.cs:95-101 | The corrected wait never throws NullReferenceException, and it agrees with the code whenever a reply arrives. |
| AzureServiceBusSender.WaitPrismExchange | Services/Services/AzureServiceBusReceiverService.cs:149-153 | A wait-mode prism request that succeeds is answered on the queue and session the sender accepted, and the sender reads back the geometry. |
| AzureServiceBusSender.WaitTimeoutExchange | Services/Services/AzureServiceBusReceiverService.cs:167-171 | A wait-mode timeout request is answered in the accepted session, and the sender reads back its process name. |
| AzureServiceBusSender.NoWaitRepliesAreCompleted | Services/Services/AzureServiceBusSenderService.cs:123-150 | Every reply to a no-wait request goes to the no-wait sender queue in the request's session, and the sender's ResponseHandler completes it. |

## Left out

- Broker bootstrap, connections, channels, queue declarations, endpoint configuration, and start/stop/dispose: these are infrastructure with no decisions in them.
- The legacy wrapper services, the RabbitMQ and NServiceBus senders, JSON serialization itself, and the mappers: payloads are abstract values, and deserialization is its per-type outcome.
- The console output, `DisplayMenu`, `Console.ReadKey`, random message generation and the HTTP calls behind it: these are I/O, and keys arrive as a sequence.
- `Task.Delay` in the process-timeout handler, and its argument checks: delays and time are not modelled.
- Concurrency: consumers, processors and handlers run one delivery at a time in the model. The counting map's read-then-increment is therefore atomic here, which it is not in the code.
- Broker behaviour after a handler returns (the Azure processor's automatic completion or abandonment, the queue's maximum delivery count and dead-lettering, RabbitMQ redelivery of nacked or unacknowledged messages, the retries NServiceBus runs for the ImmediateRetry action): the model records what the handler itself does, and redelivery appears only as repeated calls with the same MessageId.
- Failures that NServiceBus deserialization and the RabbitMQ client report: these happen inside the libraries.
- A null Type, MessageId, ReplyTo, Subject or attribute text: the model's strings are never null.
- DeliveryCounts.Observe: counts are unbounded integers. A 32-bit wrap-around after 2^31 deliveries of one MessageId is not modelled.
- Handlers.Geometry: exact real arithmetic replaces double-precision arithmetic.
- EnumUtils.FieldIndex: an enum with two names for one value resolves to the first declared field. .NET's `ToString` may pick either name.
- ConsoleMenu.NewMenu: items follow declaration order, while `Enum.GetValues` sorts by value. The two agree for enums with implicit, increasing values, as all of the application's are.
- GetConfigurationName, GetMenuDisplayName and GetDescription: these are `GetAttributeText` with a fixed attribute kind, and are stated by its row.
- A correlation registry pairing requests with replies: the code has none. Azure pairs them by session id (modelled), and RabbitMQ replies go to ReplyTo without correlation.

## Findings

| source | as written | input that shows it | evidently intended | confidence | as-written member | corrected member |
|---|---|---|---|---|---|---|
| Services/Services/AzureServiceBusSenderService.cs:95-96 | The reply returned by `ReceiveMessageAsync()` is dereferenced without a null check. | A wait-mode process-timeout request gets no reply within the client's default wait, for example because its MillisecondsTimeout is longer than that wait. `ReceiveMessageAsync` returns null, and reading `.Body` throws NullReferenceException. | A missing reply is reported as "No response found for: ProcessTimeoutResponse!", as the prism call does at lines 64-68. | medium (not executed) | AzureServiceBusSender.AwaitProcessTimeoutReplyAsWritten | AzureServiceBusSender.AwaitProcessTimeoutReply |

=== FILE: azure_receiver.dfy ===
/** The Azure Service Bus receiver's handlers: the send-only processor's
    MessageHandler and the RequestHandler that both session processors
    (wait and no-wait) share. The attempt number is the broker's
    DeliveryCount; there is no map. Completing a message, sending a reply
    and throwing back to the processor are returned as values. */
module AzureServiceBusReceiver {
  import opened Common
  import opened Messages
  import opened Handlers
  import opened ServiceBus

  /** The client's retry count, reused as the attempt at which a no-wait
      prism request gets its terminal reply. */
  const MaxRetries: int := 10

  /** What a handler does with one message: whether it completes it, the
      reply it sends (at most one), and the exception it throws to the
      processor, which then reports it to the error handler. */
  datatype Outcome = Outcome(completed: bool, sent: Option<ReplyMessage>, escaped: Option<Fault>)

  function Threw(fault: Fault, sent: Option<ReplyMessage>): Outcome
  {
    Outcome(false, sent, Some(fault))
  }

  /** Complete the message only when its body was handled; a JSON exception
      or a simulated failure escapes. */
  function MessageHandler(m: Incoming): (o: Outcome)
    ensures o.sent.None?
    ensures o.completed ==> o.escaped.None?
    ensures m.subject == SimpleMessageType ==> o == Outcome(true, None, None)
  {
    if m.subject == SimpleMessageType then Outcome(true, None, None)
    else if m.subject == AdvancedMessageType then
      if m.body.advanced.Malformed? then Threw(JsonException, None)
      else Outcome(AcceptsDecoded(m.body.advanced.Nullable()), None, None)
    else if m.subject == ExceptionMessageType then
      if m.body.exception.Malformed? then Threw(JsonException, None)
      else match HandleExceptionMessage(m.body.exception.Nullable(), m.deliveryCount)
        case Threw(fault) => Threw(fault, None)
        case Returned(handled) => Outcome(handled, None, None)
    else Outcome(false, None, None)
  }

  /** The send-only processor completes exactly the simple messages, the
      advanced messages that deserialize to an object, and the exception
      messages whose DeliveryCount has reached their SucceedOn. */
  lemma MessageHandlerCompletes(m: Incoming)
    ensures MessageHandler(m).completed <==>
              || m.subject == SimpleMessageType
              || (m.subject == AdvancedMessageType && m.body.advanced.Parsed?)
              || (m.subject == ExceptionMessageType && m.body.exception.Parsed?
                  && 1 <= m.body.exception.value.succeedOn <= m.deliveryCount)
    ensures MessageHandler(m).escaped.Some? <==>
              || (m.subject == AdvancedMessageType && m.body.advanced.Malformed?)
              || (m.subject == ExceptionMessageType && m.body.exception.Malformed?)
              || (m.subject == ExceptionMessageType && m.body.exception.Parsed?
                  && SimulatesFailure(m.body.exception.value.succeedOn, m.deliveryCount))
  {
  }

  /** Every subject a send-only sender uses is one the send-only processor
      handles, so a well-formed message whose handler succeeds is completed. */
  lemma OneWayMessagesAreRecognised(message: OneWay, m: Incoming)
    requires m.subject == OneWaySubject(message)
    requires message.AdvancedOneWay? ==> m.body.advanced == Parsed(message.advanced)
    requires message.ExceptionOneWay? ==> m.body.exception == Parsed(message.exception)
    ensures MessageHandler(m).completed <==>
              !message.ExceptionOneWay? || 1 <= message.exception.succeedOn <= m.deliveryCount
  {
  }

  /** The queue a reply goes to: the wait or the no-wait sender queue, by the request's subject. */
  function ReplyQueue(waitSubject: bool): Queue
  {
    if waitSubject then SendAndReplyWaitSenderQueue else SendAndReplyNoWaitSenderQueue
  }

  /** The prism branch of RequestHandler. Deserialization happens outside
      the try, so a malformed body throws without a reply. A simulated
      failure is rethrown, and first, on a no-wait request delivered for
      exactly the MaxRetries-th time, the terminal reply is sent. */
  function PrismRequest(m: Incoming): (o: Outcome)
    requires m.subject == RectangularPrismWaitRequestType || m.subject == RectangularPrismNoWaitRequestType
    ensures o.sent.Some? ==> o.sent.value.sessionId == m.sessionId
    ensures o.completed <==> o.escaped.None? && o.sent.Some?
    ensures m.body.prismRequest.Malformed? ==> o == Threw(JsonException, None)
  {
    if m.body.prismRequest.Malformed? then Threw(JsonException, None)
    else match HandleRectangularPrismRequest(m.body.prismRequest.Nullable(), m.deliveryCount)
      case Threw(fault) =>
        if m.subject == RectangularPrismNoWaitRequestType && MaxRetries == m.deliveryCount then
          Threw(fault, Some(ReplyOn(SendAndReplyNoWaitSenderQueue, m.sessionId, NoResponseReply)))
        else Threw(fault, None)
      case Returned(None) => Outcome(false, None, None)
      case Returned(Some(response)) =>
        var queue := ReplyQueue(m.subject == RectangularPrismWaitRequestType);
        Outcome(true, Some(ReplyOn(queue, m.sessionId, PrismReply(response))), None)
  }

  /** The process-timeout branch of RequestHandler, without its delay. */
  function TimeoutRequest(m: Incoming): (o: Outcome)
    requires m.subject == ProcessTimeoutWaitRequestType || m.subject == ProcessTimeoutNoWaitRequestType
    ensures o.sent.Some? ==> o.sent.value.sessionId == m.sessionId
    ensures o.completed <==> o.escaped.None? && o.sent.Some?
    ensures m.body.timeoutRequest.Malformed? ==> o == Threw(JsonException, None)
  {
    if m.body.timeoutRequest.Malformed? then Threw(JsonException, None)
    else match HandleProcessTimeoutRequest(m.body.timeoutRequest.Nullable())
      case None => Outcome(false, None, None)
      case Some(response) =>
        var queue := ReplyQueue(m.subject == ProcessTimeoutWaitRequestType);
        Outcome(true, Some(ReplyOn(queue, m.sessionId, TimeoutReply(response))), None)
  }

  /** The request handler of both session processors. A request whose body
      does not deserialize throws before anything is sent, so it is neither
      answered nor completed; a message with any other subject is completed
      untouched. */
  function RequestHandler(m: Incoming): (o: Outcome)
    ensures o.sent.Some? ==> o.sent.value.sessionId == m.sessionId
    ensures o.sent.Some? ==> o.sent.value.queue == SendAndReplyWaitSenderQueue || o.sent.value.queue == SendAndReplyNoWaitSenderQueue
    ensures o.completed ==> o.escaped.None?
    ensures m.subject != RectangularPrismWaitRequestType && m.subject != RectangularPrismNoWaitRequestType
            && m.subject != ProcessTimeoutWaitRequestType && m.subject != ProcessTimeoutNoWaitRequestType
            ==> o == Outcome(true, None, None)
    ensures ((m.subject == RectangularPrismWaitRequestType || m.subject == RectangularPrismNoWaitRequestType)
             && m.body.prismRequest.Malformed?) ==> o == Threw(JsonException, None)
    ensures ((m.subject == ProcessTimeoutWaitRequestType || m.subject == ProcessTimeoutNoWaitRequestType)
             && m.body.timeoutRequest.Malformed?) ==> o == Threw(JsonException, None)
  {
    if m.subject == RectangularPrismWaitRequestType || m.subject == RectangularPrismNoWaitRequestType then PrismRequest(m)
    else if m.subject == ProcessTimeoutWaitRequestType || m.subject == ProcessTimeoutNoWaitRequestType then TimeoutRequest(m)
    else Outcome(true, None, None)
  }

  /** A well-formed prism request either succeeds, and is answered in its own
      session on the queue its subject selects and then completed, or fails,
      and the failure escapes; the terminal reply accompanies the failure
      exactly on a no-wait request's MaxRetries-th delivery. */
  lemma PrismRequestOutcome(m: Incoming, wait: bool)
    requires m.subject == (if wait then RectangularPrismWaitRequestType else RectangularPrismNoWaitRequestType)
    requires m.body.prismRequest.Parsed?
    ensures var q := m.body.prismRequest.value;
            var o := RequestHandler(m);
            if SimulatesFailure(q.succeedOn, m.deliveryCount) then
              && o.escaped == Some(Simulated(q.exceptionText))
              && !o.completed
              && (o.sent.Some? <==> !wait && m.deliveryCount == MaxRetries)
              && (o.sent.Some? ==> o.sent.value == ReplyOn(SendAndReplyNoWaitSenderQueue, m.sessionId, NoResponseReply))
            else
              o == Outcome(true, Some(ReplyOn(ReplyQueue(wait), m.sessionId, PrismReply(Geometry(q)))), None)
  {
  }

  /** A prism request whose body is the JSON literal null is neither
      answered nor completed, and nothing escapes. */
  lemma NullPrismRequestIsLeft(m: Incoming)
    requires m.subject == RectangularPrismWaitRequestType || m.subject == RectangularPrismNoWaitRequestType
    requires m.body.prismRequest.JsonNull?
    ensures RequestHandler(m) == Outcome(false, None, None)
  {
  }

  /** A process-timeout request whose body is the JSON literal null is
      neither answered nor completed, and nothing escapes. */
  lemma NullTimeoutRequestIsLeft(m: Incoming)
    requires m.subject == ProcessTimeoutWaitRequestType || m.subject == ProcessTimeoutNoWaitRequestType
    requires m.body.timeoutRequest.JsonNull?
    ensures RequestHandler(m) == Outcome(false, None, None)
  {
  }

  /** Attempt by attempt, a no-wait prism request with SucceedOn = N matches
      the shared verdict with the MaxRetries ceiling: retried attempts send
      nothing, the success replies, and the ceiling attempt of a request
      that has not succeeded sends the terminal reply (and still throws). */
  lemma NoWaitPrismFollowsVerdict(m: Incoming)
    requires m.subject == RectangularPrismNoWaitRequestType
    requires m.body.prismRequest.Parsed?
    requires 1 <= m.deliveryCount <= MaxRetries
    ensures var q := m.body.prismRequest.value;
            var o := RequestHandler(m);
            match Evaluate(q.succeedOn, m.deliveryCount, MaxRetries)
            case Succeed => o.sent == Some(ReplyOn(SendAndReplyNoWaitSenderQueue, m.sessionId, PrismReply(Geometry(q))))
            case FailRetryable => o.sent.None? && o.escaped.Some?
            case FailExhausted =>
              o.sent == (if SimulatesFailure(q.succeedOn, MaxRetries)
                         then Some(ReplyOn(SendAndReplyNoWaitSenderQueue, m.sessionId, NoResponseReply))
                         else Some(ReplyOn(SendAndReplyNoWaitSenderQueue, m.sessionId, PrismReply(Geometry(q)))))
  {
    PrismRequestOutcome(m, false);
  }

  /** A wait-mode request never gets the terminal reply: a failure only escapes. */
  lemma WaitPrismNeverSendsTerminalReply(m: Incoming)
    requires m.subject == RectangularPrismWaitRequestType
    ensures RequestHandler(m).sent.Some? ==> RequestHandler(m).sent.value.reply.PrismReply?
  {
  }

  /** A well-formed process-timeout request is answered with its process name
      in its own session on the queue its subject selects, then completed. */
  lemma TimeoutRequestOutcome(m: Incoming, wait: bool)
    requires m.subject == (if wait then ProcessTimeoutWaitRequestType else ProcessTimeoutNoWaitRequestType)
    requires m.body.timeoutRequest.Parsed?
    ensures RequestHandler(m) == Outcome(true, Some(ReplyOn(ReplyQueue(wait), m.sessionId,
              TimeoutReply(ProcessTimeoutResponse(m.body.timeoutRequest.value.processName)))), None)
  {
  }
}

=== FILE: azure_sender.dfy ===
/** The Azure Service Bus sender: where each message is sent, the session
    it is tied to, how a wait-mode call reads its reply, and the no-wait
    processor's ResponseHandler that completes the replies arriving later.
    The session id is a fresh GUID in the source; here it is a parameter. */
module AzureServiceBusSender {
  import opened Common
  import opened Messages
  import opened Handlers
  import opened ServiceBus
  import AzureServiceBusReceiver

  /** The reply handler of the no-wait session processor: a reply with a
      known subject is completed only when its handler accepts the body;
      a message with any other subject is completed untouched; a malformed
      body throws. */
  function ResponseHandler(m: Incoming): (r: Handled<bool>)
    ensures r.Threw? ==> r.fault == JsonException
    ensures m.subject == RectangularPrismResponseType ==> (r == Returned(true) <==> m.body.prismResponse.Parsed?)
    ensures m.subject == ProcessTimeoutResponseType ==> (r == Returned(true) <==> m.body.timeoutResponse.Parsed?)
    ensures m.subject == ExceptionResponseType ==> (r == Returned(true) <==> m.body.exceptionResponse.Parsed?)
    ensures (m.subject != RectangularPrismResponseType && m.subject != ProcessTimeoutResponseType
             && m.subject != ExceptionResponseType) ==> r == Returned(true)
    ensures m.subject == RectangularPrismResponseType && m.body.prismResponse.Malformed? ==> r == Threw(JsonException)
    ensures m.subject == ProcessTimeoutResponseType && m.body.timeoutResponse.Malformed? ==> r == Threw(JsonException)
    ensures m.subject == ExceptionResponseType && m.body.exceptionResponse.Malformed? ==> r == Threw(JsonException)
  {
    if m.subject == RectangularPrismResponseType then
      if m.body.prismResponse.Malformed? then Threw(JsonException)
      else Returned(AcceptsDecoded(m.body.prismResponse.Nullable()))
    else if m.subject == ProcessTimeoutResponseType then
      if m.body.timeoutResponse.Malformed? then Threw(JsonException)
      else Returned(AcceptsDecoded(m.body.timeoutResponse.Nullable()))
    else if m.subject == ExceptionResponseType then
      if m.body.exceptionResponse.Malformed? then Threw(JsonException)
      else Returned(AcceptsDecoded(m.body.exceptionResponse.Nullable()))
    else Returned(true)
  }

  /** SendSimpleMessage, SendAdvancedMessage and SendExceptionMessage: the
      message goes to the send-only queue under its type tag. */
  function SendOneWay(message: OneWay): (sent: (Queue, string))
    ensures sent.0 == SendOnlyReceiverQueue
    ensures message.SimpleOneWay? ==> sent.1 == SimpleMessageType
    ensures message.AdvancedOneWay? ==> sent.1 == AdvancedMessageType
    ensures message.ExceptionOneWay? ==> sent.1 == ExceptionMessageType
  {
    (SendOnlyReceiverQueue, OneWaySubject(message))
  }

  /** One step of a send-and-reply call. */
  datatype SenderStep =
    | AcceptSession(queue: Queue, sessionId: string)
    | SendRequest(message: RequestMessage)
    | ReceiveReply(maxWaitSeconds: Option<int>)   // None: the client's default wait

  /** SendAndReplyRectangularPrism and SendAndReplyProcessTimeout. A no-wait
      call only sends to the no-wait receiver queue. A wait call first accepts
      the reply session on the wait sender queue, then sends to the wait
      receiver queue, then waits for one reply: ten seconds for a prism, the
      default wait for a process timeout. */
  function SendAndReply(request: Request, wait: bool, sessionId: string): (steps: seq<SenderStep>)
    ensures |steps| == if wait then 3 else 1
    ensures !wait ==> steps == [SendRequest(RequestMessage(SendAndReplyNoWaitReceiverQueue,
                                  RequestSubject(request, false), sessionId, request))]
    ensures wait ==> && steps[0] == AcceptSession(SendAndReplyWaitSenderQueue, sessionId)
                     && steps[1] == SendRequest(RequestMessage(SendAndReplyWaitReceiverQueue,
                                      RequestSubject(request, true), sessionId, request))
                     && steps[2].ReceiveReply?
                     && (steps[2].maxWaitSeconds.Some? <==> request.PrismRequest?)
    ensures wait && request.PrismRequest? ==> steps[2].maxWaitSeconds == Some(10)
  {
    var message := RequestMessage(
      if wait then SendAndReplyWaitReceiverQueue else SendAndReplyNoWaitReceiverQueue,
      RequestSubject(request, wait), sessionId, request);
    if !wait then [SendRequest(message)]
    else
      [AcceptSession(SendAndReplyWaitSenderQueue, sessionId),
       SendRequest(message),
       ReceiveReply(if request.PrismRequest? then Some(10) else None)]
  }

  /** The request message a send-and-reply call sends. */
  function SentRequest(request: Request, wait: bool, sessionId: string): (message: RequestMessage)
    ensures message.sessionId == sessionId && message.request == request
    ensures message.subject == RequestSubject(request, wait)
  {
    var steps := SendAndReply(request, wait, sessionId);
    if wait then steps[1].message else steps[0].message
  }

  /** What a wait-mode prism call makes of the reply it waited for: nothing
      within ten seconds, a body that deserialized to null, or the response.
      A malformed body throws. */
  datatype PrismAwait =
    | NoResponse
    | DeserializationError
    | ReceivedPrism(response: RectangularPrismResponse)
    | PrismAwaitFailed(fault: Fault)

  function AwaitRectangularPrismReply(reply: Option<Incoming>): (r: PrismAwait)
    ensures r == NoResponse <==> reply.None?
    ensures r == DeserializationError <==> reply.Some? && reply.value.body.prismResponse.JsonNull?
    ensures r.ReceivedPrism? <==> reply.Some? && reply.value.body.prismResponse.Parsed?
    ensures r.ReceivedPrism? ==> r.response == reply.value.body.prismResponse.value
  {
    match reply
    case None => NoResponse
    case Some(m) =>
      match m.body.prismResponse
      case Malformed => PrismAwaitFailed(JsonException)
      case JsonNull => DeserializationError
      case Parsed(response) => ReceivedPrism(response)
  }

  /** What a wait-mode process-timeout call makes of the reply it waited for. */
  datatype TimeoutAwait =
    | NoTimeoutResponse
    | ReceivedTimeout(processName: string)
    | TimeoutAwaitFailed(fault: Fault)

  /** The process-timeout wait as written: the reply is dereferenced without
      a null check, so when none arrives within the default wait the call
      throws a NullReferenceException. */
  function AwaitProcessTimeoutReplyAsWritten(reply: Option<Incoming>): (r: TimeoutAwait)
    ensures reply.None? ==> r == TimeoutAwaitFailed(NullReference)
    ensures reply.Some? ==> r == AwaitProcessTimeoutReply(reply)
  {
    match reply
    case None => TimeoutAwaitFailed(NullReference)
    case Some(m) =>
      match m.body.timeoutResponse
      case Malformed => TimeoutAwaitFailed(JsonException)
      case JsonNull => NoTimeoutResponse
      case Parsed(response) => ReceivedTimeout(response.processName)
  }

  /** No reply within the default wait makes the as-written call throw. */
  lemma MissingTimeoutReplyThrows()
    ensures AwaitProcessTimeoutReplyAsWritten(None) == TimeoutAwaitFailed(NullReference)
    ensures AwaitRectangularPrismReply(None) == NoResponse
  {
  }

  /** The process-timeout wait with the null check the prism wait has: a
      missing reply reports "no response" like a null body does. */
  function AwaitProcessTimeoutReply(reply: Option<Incoming>): (r: TimeoutAwait)
    ensures r == NoTimeoutResponse <==> reply.None? || reply.value.body.timeoutResponse.JsonNull?
    ensures r.ReceivedTimeout? <==> reply.Some? && reply.value.body.timeoutResponse.Parsed?
    ensures r.ReceivedTimeout? ==> r.processName == reply.value.body.timeoutResponse.value.processName
    ensures r.TimeoutAwaitFailed? ==> r.fault == JsonException
  {
    match reply
    case None => NoTimeoutResponse
    case Some(m) =>
      match m.body.timeoutResponse
      case Malformed => TimeoutAwaitFailed(JsonException)
      case JsonNull => NoTimeoutResponse
      case Parsed(response) => ReceivedTimeout(response.processName)
  }

  /** The corrected wait never dereferences a missing reply, and it agrees
      with the code as written whenever a reply arrives. */
  lemma CorrectedTimeoutAwaitNeverThrowsNullReference(reply: Option<Incoming>)
    ensures AwaitProcessTimeoutReply(reply) != TimeoutAwaitFailed(NullReference)
    ensures reply.Some? ==> AwaitProcessTimeoutReply(reply) == AwaitProcessTimeoutReplyAsWritten(reply)
    ensures AwaitProcessTimeoutReply(None) != AwaitProcessTimeoutReplyAsWritten(None)
  {
  }

  /** A wait-mode prism exchange: the receiver answers a request that
      succeeds on this delivery in the very session the sender accepted, on
      the queue it accepted it on, and the sender reads the geometry back. */
  lemma WaitPrismExchange(q: RectangularPrismRequest, sessionId: string, delivered: Incoming, replied: Incoming)
    requires DeliveryOfRequest(delivered, SentRequest(PrismRequest(q), true, sessionId))
    requires !SimulatesFailure(q.succeedOn, delivered.deliveryCount)
    ensures var o := AzureServiceBusReceiver.RequestHandler(delivered);
            && o.completed
            && o.sent.Some?
            && SendAndReply(PrismRequest(q), true, sessionId)[0] == AcceptSession(o.sent.value.queue, o.sent.value.sessionId)
            && (DeliveryOfReply(replied, o.sent.value) ==>
                  AwaitRectangularPrismReply(Some(replied)) == ReceivedPrism(Geometry(q)))
  {
    AzureServiceBusReceiver.PrismRequestOutcome(delivered, true);
  }

  /** A wait-mode process-timeout exchange: the reply reaches the accepted
      session and the sender reads its own process name back. */
  lemma WaitTimeoutExchange(q: ProcessTimeoutRequest, sessionId: string, delivered: Incoming, replied: Incoming)
    requires DeliveryOfRequest(delivered, SentRequest(TimeoutRequest(q), true, sessionId))
    ensures var o := AzureServiceBusReceiver.RequestHandler(delivered);
            && o.completed
            && o.sent.Some?
            && SendAndReply(TimeoutRequest(q), true, sessionId)[0] == AcceptSession(o.sent.value.queue, o.sent.value.sessionId)
            && (DeliveryOfReply(replied, o.sent.value) ==>
                  AwaitProcessTimeoutReply(Some(replied)) == ReceivedTimeout(q.processName))
  {
    AzureServiceBusReceiver.TimeoutRequestOutcome(delivered, true);
  }

  /** A no-wait exchange: whatever the receiver sends for a no-wait request
      (the response, or the terminal reply) goes to the no-wait sender queue
      in the request's session, and the sender's ResponseHandler completes it. */
  lemma NoWaitRepliesAreCompleted(request: Request, sessionId: string, delivered: Incoming, replied: Incoming)
    requires DeliveryOfRequest(delivered, SentRequest(request, false, sessionId))
    ensures var o := AzureServiceBusReceiver.RequestHandler(delivered);
            o.sent.Some? ==>
              && o.sent.value.queue == SendAndReplyNoWaitSenderQueue
              && o.sent.value.sessionId == sessionId
              && (DeliveryOfReply(replied, o.sent.value) ==> ResponseHandler(replied) == Returned(true))
  {
    match request
    case PrismRequest(q) => AzureServiceBusReceiver.PrismRequestOutcome(delivered, false);
    case TimeoutRequest(q) => AzureServiceBusReceiver.TimeoutRequestOutcome(delivered, false);
  }
}

=== FILE: common.dfy ===
/** Value types shared by every part of the model: nullable references,
    results of operations that throw, the outcome of deserializing a
    message body, and the exceptions a message handler can raise. */
module Common {

  /** A nullable reference: None stands for C# null. */
  datatype Option<+T> = None | Some(value: T)

  /** A value, or the exception an operation throws instead. */
  datatype Result<+T, +E> = Ok(value: T) | Err(error: E)

  /** What deserializing a body as one message type yields: an object,
      a null reference (the JSON literal null), or a thrown JsonException
      when the text is not JSON of that shape. */
  datatype Json<+T> = Parsed(value: T) | JsonNull | Malformed {

    /** The nullable reference a handler receives when deserialization did not throw. */
    function Nullable(): (r: Option<T>)
      requires !Malformed?
      ensures r.Some? <==> Parsed?
      ensures r.Some? ==> r.value == value
    {
      if Parsed? then Some(value) else None
    }
  }

  /** An exception raised while a message is handled. */
  datatype Fault =
    | Simulated(text: string)   // thrown on purpose by a fault-injecting handler
    | JsonException             // thrown by the deserializer on malformed text
    | NullReference             // a null reference was dereferenced

  /** A handler call either returns a value or throws. */
  datatype Handled<+T> = Returned(value: T) | Threw(fault: Fault)
}

=== FILE: delivery_counts.dfy ===
/** The per-message delivery counter the RabbitMQ and NServiceBus receivers
    keep because their transports do not report a delivery count: a map
    from message id to the number the next observation reports. */
module DeliveryCounts {

  type Counts = map<string, int>

  /** The attempt number reported by one observation, and the map after it. */
  datatype Observation = Observation(deliveryCount: int, counts: Counts)

  /** Every stored count is at least 1. */
  predicate Valid(counts: Counts)
  {
    forall id :: id in counts ==> counts[id] >= 1
  }

  /** The attempt number the next observation of `id` reports. */
  function Next(counts: Counts, id: string): int
  {
    if id in counts then counts[id] else 1
  }

  /** Insert 1 on first sight, read the count, then store it plus one. */
  function Observe(counts: Counts, id: string): (o: Observation)
    ensures id !in counts ==> o.deliveryCount == 1
    ensures id in counts ==> o.deliveryCount == counts[id]
    ensures o.counts.Keys == counts.Keys + {id}
    ensures o.counts[id] == o.deliveryCount + 1
    ensures forall other :: other in counts && other != id ==> o.counts[other] == counts[other]
    ensures Valid(counts) ==> Valid(o.counts) && o.deliveryCount >= 1
  {
    var deliveryCount := if id in counts then counts[id] else 1;
    Observation(deliveryCount, counts[id := deliveryCount + 1])
  }

  /** Observe each id in turn; the reported attempt numbers, in order, and the final map. */
  function ObserveAll(counts: Counts, ids: seq<string>): (r: (seq<int>, Counts))
    ensures |r.0| == |ids|
    decreases |ids|
  {
    if |ids| == 0 then ([], counts)
    else
      var o := Observe(counts, ids[0]);
      var rest := ObserveAll(o.counts, ids[1..]);
      ([o.deliveryCount] + rest.0, rest.1)
  }

  /** The j-th observation reports one more than the number of earlier
      observations of the same id (counted from the starting map): per id the
      reported numbers run 1, 2, 3, ... whatever other ids are interleaved. */
  lemma {:induction false} ObserveAllReportsOccurrences(counts: Counts, ids: seq<string>, j: int)
    requires 0 <= j < |ids|
    ensures ObserveAll(counts, ids).0[j] == Next(counts, ids[j]) + multiset(ids[..j])[ids[j]]
    decreases |ids|
  {
    var o := Observe(counts, ids[0]);
    if j > 0 {
      ObserveAllReportsOccurrences(o.counts, ids[1..], j - 1);
      assert ids[1..][j - 1] == ids[j];
      assert ids[1..][..j - 1] == ids[1..j];
      assert ids[..j] == [ids[0]] + ids[1..j];
      assert Next(o.counts, ids[j]) == Next(counts, ids[j]) + (if ids[0] == ids[j] then 1 else 0);
    }
  }

  /** The final map holds, for every id seen, its next attempt number. */
  lemma {:induction false} ObserveAllFinalCounts(counts: Counts, ids: seq<string>, id: string)
    requires id in ids || id in counts
    ensures id in ObserveAll(counts, ids).1
    ensures ObserveAll(counts, ids).1[id] == Next(counts, id) + multiset(ids)[id]
    decreases |ids|
  {
    if |ids| > 0 {
      var o := Observe(counts, ids[0]);
      assert id == ids[0] || id in ids[1..] || id in counts;
      ObserveAllFinalCounts(o.counts, ids[1..], id);
      assert ids == [ids[0]] + ids[1..];
      assert Next(o.counts, id) == Next(counts, id) + (if ids[0] == id then 1 else 0);
    }
  }

  /** Ids never observed keep their count. */
  lemma {:induction false} ObserveAllLeavesOthers(counts: Counts, ids: seq<string>, id: string)
    requires id !in ids
    ensures id in ObserveAll(counts, ids).1 <==> id in counts
    ensures id in counts ==> ObserveAll(counts, ids).1[id] == counts[id]
    decreases |ids|
  {
    if |ids| > 0 {
      assert id !in ids[1..];
      ObserveAllLeavesOthers(Observe(counts, ids[0]).counts, ids[1..], id);
    }
  }
}

=== FILE: enum_utils.dfy ===
/** Attribute lookups on enum values. An enum is its list of fields in
    declaration order; each field has a name, an underlying integer value
    and, optionally, a Description, a MenuDisplayName and a
    ConfigurationName attribute. */
module EnumUtils {
  import opened Common

  datatype Field = Field(
    name: string,
    value: int,
    description: Option<string>,
    menuDisplayName: Option<string>,
    configurationName: Option<string>)

  type EnumType = seq<Field>

  datatype AttributeKind = Description | MenuDisplayName | ConfigurationName

  /** Thrown when a value is not defined in the enum it is looked up in. */
  datatype EnumError = ArgumentException(value: int)

  function AttributeOf(field: Field, kind: AttributeKind): Option<string>
  {
    match kind
    case Description => field.description
    case MenuDisplayName => field.menuDisplayName
    case ConfigurationName => field.configurationName
  }

  predicate Defined(e: EnumType, value: int)
  {
    exists i :: 0 <= i < |e| && e[i].value == value
  }

  /** Index of the field a value resolves to: the first field, in
      declaration order, with that underlying value. */
  function FieldIndex(e: EnumType, value: int): (r: Option<nat>)
    ensures r.None? <==> !Defined(e, value)
    ensures r.Some? ==> r.value < |e| && e[r.value].value == value
    ensures r.Some? ==> forall j :: 0 <= j < r.value ==> e[j].value != value
  {
    if |e| == 0 then None
    else if e[0].value == value then Some(0)
    else match FieldIndex(e[1..], value)
      case None =>
        assert forall i :: 1 <= i < |e| ==> e[i] == e[1..][i - 1];
        None
      case Some(i) => Some(i + 1)
  }

  /** GetAttribute: the attribute of the field the value resolves to, null
      when the field lacks it, and ArgumentException when no field has the value. */
  function GetAttribute(e: EnumType, value: int, kind: AttributeKind): (r: Result<Option<string>, EnumError>)
    ensures r.Err? <==> !Defined(e, value)
    ensures r.Err? ==> r.error == ArgumentException(value)
    ensures r.Ok? ==> exists i :: 0 <= i < |e| && e[i].value == value && r.value == AttributeOf(e[i], kind)
  {
    match FieldIndex(e, value)
    case None => Err(ArgumentException(value))
    case Some(i) => Ok(AttributeOf(e[i], kind))
  }

  /** The attribute's text, with a missing attribute read as "" (the `?. ?? string.Empty` pattern). */
  function GetAttributeText(e: EnumType, value: int, kind: AttributeKind): (r: Result<string, EnumError>)
    ensures r.Err? <==> !Defined(e, value)
    ensures r.Err? ==> r.error == ArgumentException(value)
    ensures r.Ok? ==> match GetAttribute(e, value, kind)
                      case Ok(None) => r.value == ""
                      case Ok(Some(text)) => r.value == text
                      case Err(_) => false
  {
    match GetAttribute(e, value, kind)
    case Err(error) => Err(error)
    case Ok(attribute) => Ok(TextOf(attribute))
  }

  function GetDescription(e: EnumType, value: int): Result<string, EnumError>
  {
    GetAttributeText(e, value, Description)
  }

  function GetMenuDisplayName(e: EnumType, value: int): Result<string, EnumError>
  {
    GetAttributeText(e, value, MenuDisplayName)
  }

  function GetConfigurationName(e: EnumType, value: int): Result<string, EnumError>
  {
    GetAttributeText(e, value, ConfigurationName)
  }

  /** The lookups are by underlying value: defined values never throw, and
      the text is the resolved field's attribute, or "" when it has none. */
  lemma {:induction false} LookupOfFieldValue(e: EnumType, i: int, kind: AttributeKind)
    requires 0 <= i < |e|
    requires forall j :: 0 <= j < i ==> e[j].value != e[i].value
    ensures GetAttributeText(e, e[i].value, kind)
            == Ok(TextOf(AttributeOf(e[i], kind)))
  {
    var k := FieldIndex(e, e[i].value);
    assert k.Some?;
    assert k.value == i;
  }

  /** An attribute read as text: "" when the field does not carry it. */
  function TextOf(attribute: Option<string>): string
  {
    match attribute
    case Some(text) => text
    case None => ""
  }

  /** The three lookups of one defined value all read the same field: its
      description, display name and configuration name come from one field
      that carries the value, even when several fields do. */
  lemma LookupsShareOneField(e: EnumType, value: int)
    requires Defined(e, value)
    ensures exists i :: 0 <= i < |e| && e[i].value == value
              && GetDescription(e, value) == Ok(TextOf(e[i].description))
              && GetMenuDisplayName(e, value) == Ok(TextOf(e[i].menuDisplayName))
              && GetConfigurationName(e, value) == Ok(TextOf(e[i].configurationName))
  {
    var i := FieldIndex(e, value).value;
    assert GetDescription(e, value) == Ok(TextOf(e[i].description));
    assert GetMenuDisplayName(e, value) == Ok(TextOf(e[i].menuDisplayName));
    assert GetConfigurationName(e, value) == Ok(TextOf(e[i].configurationName));
  }

  /** GetValueFromMenuDisplayName: the value of the first field, in
      declaration order, whose display name equals the argument; null if none. */
  function GetValueFromMenuDisplayName(e: EnumType, menuDisplayName: string): (r: Option<int>)
    ensures r.None? <==> forall i :: 0 <= i < |e| ==> e[i].menuDisplayName != Some(menuDisplayName)
    ensures r.Some? ==> exists i :: 0 <= i < |e| && e[i].menuDisplayName == Some(menuDisplayName) && r.value == e[i].value
                                    && forall j :: 0 <= j < i ==> e[j].menuDisplayName != Some(menuDisplayName)
  {
    if |e| == 0 then None
    else if e[0].menuDisplayName == Some(menuDisplayName) then Some(e[0].value)
    else
      var r := GetValueFromMenuDisplayName(e[1..], menuDisplayName);
      assert forall i :: 1 <= i < |e| ==> e[i] == e[1..][i - 1];
      if r.Some? then
        var k :| 0 <= k < |e[1..]| && e[1..][k].menuDisplayName == Some(menuDisplayName) && r.value == e[1..][k].value
                 && forall j :: 0 <= j < k ==> e[1..][j].menuDisplayName != Some(menuDisplayName);
        assert e[k + 1] == e[1..][k];
        r
      else r
  }

  /** Display names are distinct among the fields that carry one. */
  predicate DistinctDisplayNames(e: EnumType)
  {
    forall i, j :: 0 <= i < j < |e| && e[i].menuDisplayName.Some? ==> e[i].menuDisplayName != e[j].menuDisplayName
  }

  /** With distinct display names, looking up a value's display name gives the value back. */
  lemma DisplayNameRoundTrip(e: EnumType, value: int, name: string)
    requires DistinctDisplayNames(e)
    requires GetAttribute(e, value, MenuDisplayName) == Ok(Some(name))
    ensures GetMenuDisplayName(e, value) == Ok(name)
    ensures GetValueFromMenuDisplayName(e, name) == Some(value)
  {
    var i := FieldIndex(e, value).value;
    var r := GetValueFromMenuDisplayName(e, name);
    assert e[i].menuDisplayName == Some(name);
    var k :| 0 <= k < |e| && e[k].menuDisplayName == Some(name) && r.value == e[k].value
             && forall j :: 0 <= j < k ==> e[j].menuDisplayName != Some(name);
    assert k == i;
  }

  // The two enums the unit tests declare: TestEnumA's TypeA1 has no
  // attributes and TypeA2 has empty ones; TestEnumB has a single value.
  const TestEnumA: EnumType := [
    Field("TypeA1", 0, None, None, None),
    Field("TypeA2", 1, None, Some(""), Some("")),
    Field("TypeA3", 2, None, Some("TypeA3MenuDisplayName"), Some("TypeA3ConfigurationName")),
    Field("TypeA4", 3, None, Some("TypeA4MenuDisplayName"), Some("TypeA4ConfigurationName"))
  ]

  const TestEnumB: EnumType := [
    Field("TypeB1", 0, None, Some("TypeB1MenuDisplayName"), Some("TypeB1ConfigurationName"))
  ]

  /** GetConfigurationNameTest, basic cases: missing and empty attributes read
      as "", present ones verbatim. */
  lemma ConfigurationNameTestBasic()
    ensures GetConfigurationName(TestEnumA, 0) == Ok("")
    ensures GetConfigurationName(TestEnumA, 1) == Ok("")
    ensures GetConfigurationName(TestEnumA, 2) == Ok("TypeA3ConfigurationName")
    ensures GetConfigurationName(TestEnumA, 3) == Ok("TypeA4ConfigurationName")
  {
    LookupOfFieldValue(TestEnumA, 0, ConfigurationName);
    LookupOfFieldValue(TestEnumA, 1, ConfigurationName);
    LookupOfFieldValue(TestEnumA, 2, ConfigurationName);
    LookupOfFieldValue(TestEnumA, 3, ConfigurationName);
  }

  /** GetMenuDisplayNameTest, basic cases. */
  lemma MenuDisplayNameTestBasic()
    ensures GetMenuDisplayName(TestEnumA, 0) == Ok("")
    ensures GetMenuDisplayName(TestEnumA, 1) == Ok("")
    ensures GetMenuDisplayName(TestEnumA, 2) == Ok("TypeA3MenuDisplayName")
    ensures GetMenuDisplayName(TestEnumA, 3) == Ok("TypeA4MenuDisplayName")
  {
    LookupOfFieldValue(TestEnumA, 0, MenuDisplayName);
    LookupOfFieldValue(TestEnumA, 1, MenuDisplayName);
    LookupOfFieldValue(TestEnumA, 2, MenuDisplayName);
    LookupOfFieldValue(TestEnumA, 3, MenuDisplayName);
  }

  /** The advanced cases of both tests: TypeA1 (value 0) cast to TestEnumB
      resolves to TypeB1, and TypeA2 (value 1) cast to TestEnumB throws. */
  lemma CastValueTests()
    ensures GetConfigurationName(TestEnumB, 0) == Ok("TypeB1ConfigurationName")
    ensures GetConfigurationName(TestEnumB, 1) == Err(ArgumentException(1))
    ensures GetMenuDisplayName(TestEnumB, 0) == Ok("TypeB1MenuDisplayName")
    ensures GetMenuDisplayName(TestEnumB, 1) == Err(ArgumentException(1))
  {
    LookupOfFieldValue(TestEnumB, 0, ConfigurationName);
    LookupOfFieldValue(TestEnumB, 0, MenuDisplayName);
    assert !Defined(TestEnumB, 1);
  }
}

=== FILE: handlers.dfy ===
/** The transport-independent message handlers: the two fault-injecting
    handlers that throw until attempt SucceedOn, the handlers that only
    check that a body deserialized, and the receiver-side verdict they
    amount to once a ceiling on attempts is added. */
module Handlers {
  import opened Common
  import opened Messages

  /** True when a fault-injecting handler throws on this attempt: a
      SucceedOn of 0 or less never succeeds, and every attempt below
      SucceedOn fails. */
  predicate SimulatesFailure(succeedOn: int, deliveryCount: int)
  {
    succeedOn <= 0 || deliveryCount < succeedOn
  }

  /** ExceptionMessageHandler.Handle: false for a body that deserialized to
      null, a simulated failure carrying the message's text, or true. */
  function HandleExceptionMessage(message: Option<ExceptionMessage>, deliveryCount: int): (r: Handled<bool>)
    ensures message.None? ==> r == Returned(false)
    ensures r.Threw? <==> message.Some? && SimulatesFailure(message.value.succeedOn, deliveryCount)
    ensures r.Threw? ==> r.fault == Simulated(message.value.exceptionText)
    ensures r == Returned(true) <==> message.Some? && 1 <= message.value.succeedOn <= deliveryCount
  {
    match message
    case None => Returned(false)
    case Some(m) =>
      if SimulatesFailure(m.succeedOn, deliveryCount) then Threw(Simulated(m.exceptionText))
      else Returned(true)
  }

  /** A message that never succeeds throws on every attempt. */
  lemma NonPositiveSucceedOnAlwaysThrows(m: ExceptionMessage, deliveryCount: int)
    requires m.succeedOn <= 0
    ensures HandleExceptionMessage(Some(m), deliveryCount) == Threw(Simulated(m.exceptionText))
  {
  }

  /** With SucceedOn = N >= 1, attempts below N throw and attempts from N on succeed. */
  lemma SucceedsExactlyFromAttemptN(m: ExceptionMessage, deliveryCount: int)
    requires m.succeedOn >= 1
    ensures deliveryCount < m.succeedOn ==> HandleExceptionMessage(Some(m), deliveryCount).Threw?
    ensures deliveryCount >= m.succeedOn ==> HandleExceptionMessage(Some(m), deliveryCount) == Returned(true)
  {
  }

  /** Once an attempt succeeds, every later attempt succeeds too. */
  lemma SuccessIsMonotone(m: ExceptionMessage, earlier: int, later: int)
    requires earlier <= later
    requires HandleExceptionMessage(Some(m), earlier) == Returned(true)
    ensures HandleExceptionMessage(Some(m), later) == Returned(true)
  {
  }

  /** Surface area and volume of a prism with the given edges, in exact arithmetic. */
  function Geometry(request: RectangularPrismRequest): RectangularPrismResponse
  {
    var a, b, c := request.edgeA, request.edgeB, request.edgeC;
    RectangularPrismResponse(2.0 * (a * b + a * c + b * c), a * b * c)
  }

  /** RectangularPrismRequestHandler.HandleAndGenerateResponse: a null
      response for a body that deserialized to null, the same simulated
      failure as an exception message, or the prism's geometry. */
  function HandleRectangularPrismRequest(request: Option<RectangularPrismRequest>, deliveryCount: int)
    : (r: Handled<Option<RectangularPrismResponse>>)
    ensures request.None? ==> r == Returned(None)
    ensures r.Threw? <==> request.Some? && SimulatesFailure(request.value.succeedOn, deliveryCount)
    ensures r.Threw? ==> r.fault == Simulated(request.value.exceptionText)
    ensures (r.Returned? && r.value.Some?) <==> request.Some? && 1 <= request.value.succeedOn <= deliveryCount
    ensures r.Returned? && r.value.Some? ==> r.value.value == Geometry(request.value)
  {
    match request
    case None => Returned(None)
    case Some(q) =>
      if SimulatesFailure(q.succeedOn, deliveryCount) then Threw(Simulated(q.exceptionText))
      else Returned(Some(Geometry(q)))
  }

  /** Both fault-injecting handlers apply the same threshold and throw the same text. */
  lemma HandlersShareThreshold(q: RectangularPrismRequest, deliveryCount: int)
    ensures var m := ExceptionMessage(q.exceptionText, q.succeedOn);
            var e := HandleExceptionMessage(Some(m), deliveryCount);
            var p := HandleRectangularPrismRequest(Some(q), deliveryCount);
            (e.Threw? <==> p.Threw?) && (e.Threw? ==> e.fault == p.fault)
  {
  }

  /** A successful response depends on the edges only, not on the attempt. */
  lemma ResponseIndependentOfAttempt(q: RectangularPrismRequest, first: int, second: int)
    requires !SimulatesFailure(q.succeedOn, first) && !SimulatesFailure(q.succeedOn, second)
    ensures HandleRectangularPrismRequest(Some(q), first) == HandleRectangularPrismRequest(Some(q), second)
  {
  }

  /** AdvancedMessageHandler, RectangularPrismResponseHandler,
      ProcessTimeoutResponseHandler and ExceptionResponseHandler: each accepts
      exactly the bodies that deserialized to an object. */
  function AcceptsDecoded<T>(payload: Option<T>): (accepted: bool)
    ensures accepted <==> payload != None
  {
    payload.Some?
  }

  /** ProcessTimeoutRequestHandler.HandleAndGenerateResponse, without its delay:
      echoes the process name back, or a null response for a null body. */
  function HandleProcessTimeoutRequest(request: Option<ProcessTimeoutRequest>): (r: Option<ProcessTimeoutResponse>)
    ensures r.Some? <==> request.Some?
    ensures r.Some? ==> r.value.processName == request.value.processName
  {
    match request
    case None => None
    case Some(q) => Some(ProcessTimeoutResponse(q.processName))
  }

  /** The receiver-side decision for one attempt at a fault-injected request. */
  datatype Verdict = Succeed | FailRetryable | FailExhausted

  /** The decision every receiver with a ceiling makes: the ceiling is checked
      before the handler runs, then the handler's threshold decides. */
  function Evaluate(succeedOn: int, attempt: int, maxAttempts: int): (v: Verdict)
    ensures v == FailExhausted <==> attempt >= maxAttempts
    ensures v == Succeed <==> attempt < maxAttempts && 1 <= succeedOn <= attempt
  {
    if maxAttempts <= attempt then FailExhausted
    else if SimulatesFailure(succeedOn, attempt) then FailRetryable
    else Succeed
  }

  /** With SucceedOn = N and a ceiling above N, attempts 1..N-1 are retried
      and attempt N succeeds. */
  lemma SuccessOnAttemptN(succeedOn: int, maxAttempts: int, attempt: int)
    requires 1 <= succeedOn < maxAttempts
    requires 1 <= attempt <= succeedOn
    ensures attempt < succeedOn ==> Evaluate(succeedOn, attempt, maxAttempts) == FailRetryable
    ensures attempt == succeedOn ==> Evaluate(succeedOn, attempt, maxAttempts) == Succeed
  {
  }

  /** A request that never succeeds is retried until the ceiling, where it is exhausted. */
  lemma NeverSucceedsIsExhaustedAtCeiling(succeedOn: int, maxAttempts: int, attempt: int)
    requires succeedOn <= 0
    requires 1 <= attempt <= maxAttempts
    ensures attempt < maxAttempts ==> Evaluate(succeedOn, attempt, maxAttempts) == FailRetryable
    ensures attempt == maxAttempts ==> Evaluate(succeedOn, attempt, maxAttempts) == FailExhausted
  {
  }
}

=== FILE: menu.dfy ===
/** The console menu built from an enum: its item list, the selection that
    the arrow keys move with wrap-around, and the value Enter picks. Drawing
    the menu is left out; keys arrive as a sequence. */
module ConsoleMenu {
  import opened Common
  import opened EnumUtils

  const ExitItemDisplayName: string := "Exit"

  datatype Menu = Menu(items: seq<string>, selectedItemId: int)

  datatype Key = UpArrow | DownArrow | Enter | OtherKey(code: int)

  /** The exceptions an empty item list leads to. */
  datatype MenuError = DivideByZero | ArgumentOutOfRange

  /** The selection points at an item. */
  predicate Valid(m: Menu)
  {
    0 <= m.selectedItemId < |m.items|
  }

  /** The display name of the i-th value, as GetMenuDisplayName reads it
      (a value taken from the enum itself is always defined). */
  function DisplayNameAt(e: EnumType, i: int): string
    requires 0 <= i < |e|
  {
    var name := GetMenuDisplayName(e, e[i].value);
    if name.Ok? then name.value else ""
  }

  /** The display names of all the values, in declaration order. */
  function DisplayNames(e: EnumType): (names: seq<string>)
    ensures |names| == |e|
    ensures forall k :: 0 <= k < |e| ==> names[k] == DisplayNameAt(e, k)
  {
    seq(|e|, k requires 0 <= k < |e| => DisplayNameAt(e, k))
  }

  /** The names from index i on, in order, without the empty ones. */
  function MenuItemsFrom(names: seq<string>, i: nat): (items: seq<string>)
    requires i <= |names|
    ensures |items| <= |names| - i
    ensures forall x :: x in items <==> x != "" && x in names[i..]
    decreases |names| - i
  {
    if i == |names| then []
    else
      assert names[i..] == [names[i]] + names[i + 1..];
      (if names[i] == "" then [] else [names[i]]) + MenuItemsFrom(names, i + 1)
  }

  /** The indices, from i on, of the non-empty names, in increasing order
      and each exactly once. */
  function ItemIndices(names: seq<string>, i: nat): (idx: seq<nat>)
    requires i <= |names|
    ensures forall j :: 0 <= j < |idx| ==> i <= idx[j] < |names| && names[idx[j]] != ""
    ensures forall j, k :: 0 <= j < k < |idx| ==> idx[j] < idx[k]
    ensures forall k :: i <= k < |names| && names[k] != "" ==> k in idx
    decreases |names| - i
  {
    if i == |names| then []
    else if names[i] == "" then ItemIndices(names, i + 1)
    else [i] + ItemIndices(names, i + 1)
  }

  /** The items are the non-empty names in declaration order, one per
      value: a name that two values share is listed twice. */
  lemma {:induction false} MenuItemsFollowIndices(names: seq<string>, i: nat)
    requires i <= |names|
    ensures |MenuItemsFrom(names, i)| == |ItemIndices(names, i)|
    ensures forall j :: 0 <= j < |ItemIndices(names, i)| ==> MenuItemsFrom(names, i)[j] == names[ItemIndices(names, i)[j]]
    decreases |names| - i
  {
    if i < |names| {
      MenuItemsFollowIndices(names, i + 1);
      if names[i] != "" {
        PrependKeepsAlignment(names, i, MenuItemsFrom(names, i + 1), ItemIndices(names, i + 1));
      }
    }
  }

  /** Putting name i in front of the items and i in front of the indices
      keeps the two aligned. */
  lemma PrependKeepsAlignment(names: seq<string>, i: nat, items: seq<string>, idx: seq<nat>)
    requires i < |names| && |items| == |idx|
    requires forall j :: 0 <= j < |idx| ==> idx[j] < |names| && items[j] == names[idx[j]]
    ensures forall j :: 0 <= j < |idx| + 1 ==> ([i] + idx)[j] < |names| && ([names[i]] + items)[j] == names[([i] + idx)[j]]
  {
    forall j | 0 < j < |idx| + 1
      ensures ([i] + idx)[j] < |names| && ([names[i]] + items)[j] == names[([i] + idx)[j]]
    {
      assert ([i] + idx)[j] == idx[j - 1];
    }
  }

  /** The menu's constructor: the non-empty display names in declaration
      order, then "Exit" when asked for, with the first item selected. */
  function NewMenu(e: EnumType, addExitItem: bool): (m: Menu)
    ensures m.selectedItemId == 0
    ensures |m.items| == |MenuItemsFrom(DisplayNames(e), 0)| + (if addExitItem then 1 else 0)
    ensures m.items[..|MenuItemsFrom(DisplayNames(e), 0)|] == MenuItemsFrom(DisplayNames(e), 0)
    ensures |MenuItemsFrom(DisplayNames(e), 0)| == |ItemIndices(DisplayNames(e), 0)|
    ensures forall j :: 0 <= j < |ItemIndices(DisplayNames(e), 0)| ==>
              m.items[j] == DisplayNameAt(e, ItemIndices(DisplayNames(e), 0)[j])
    ensures addExitItem ==> m.items[|m.items| - 1] == ExitItemDisplayName
    ensures forall x :: x in m.items ==> x != ""
  {
    var names := DisplayNames(e);
    MenuItemsFollowIndices(names, 0);
    var items := MenuItemsFrom(names, 0);
    Menu(if addExitItem then items + [ExitItemDisplayName] else items, 0)
  }

  /** An item is listed exactly when some value of the enum displays it
      (or it is the Exit item the menu was asked to add). */
  lemma NewMenuItems(e: EnumType, addExitItem: bool, x: string)
    ensures x in NewMenu(e, addExitItem).items <==>
              (x != "" && exists k :: 0 <= k < |e| && DisplayNameAt(e, k) == x)
              || (addExitItem && x == ExitItemDisplayName)
  {
    var names := DisplayNames(e);
    assert names[0..] == names;
    if x != "" && x in names {
      var k :| 0 <= k < |names| && names[k] == x;
      assert DisplayNameAt(e, k) == x;
    }
  }

  /** C#'s `%` operator, which truncates toward zero. */
  function Remainder(a: int, n: int): (r: int)
    requires n > 0
    ensures a >= 0 ==> r == a % n
    ensures a < 0 ==> -n < r <= 0
  {
    if a >= 0 then a % n else -((-a) % n)
  }

  /** One key press: Up decrements and adds Count when the result is
      negative, Down increments modulo Count, other keys change nothing. */
  function Move(m: Menu, key: Key): (r: Result<Menu, MenuError>)
    ensures r.Err? <==> key == DownArrow && |m.items| == 0
    ensures r.Err? ==> r.error == DivideByZero
    ensures r.Ok? ==> r.value.items == m.items
    ensures key != UpArrow && key != DownArrow ==> r == Ok(m)
    ensures Valid(m) && r.Ok? ==> Valid(r.value)
  {
    match key
    case UpArrow =>
      var s := m.selectedItemId - 1;
      Ok(m.(selectedItemId := s + (if s < 0 then |m.items| else 0)))
    case DownArrow =>
      if |m.items| == 0 then Err(DivideByZero)
      else Ok(m.(selectedItemId := Remainder(m.selectedItemId + 1, |m.items|)))
    case _ => Ok(m)
  }

  /** Up from the first item wraps to the last; otherwise it moves up one. */
  lemma UpWrapsAround(m: Menu)
    requires Valid(m)
    ensures Move(m, UpArrow) == Ok(m.(selectedItemId :=
              if m.selectedItemId == 0 then |m.items| - 1 else m.selectedItemId - 1))
  {
  }

  /** Down from the last item wraps to the first; otherwise it moves down one. */
  lemma DownWrapsAround(m: Menu)
    requires Valid(m)
    ensures Move(m, DownArrow) == Ok(m.(selectedItemId :=
              if m.selectedItemId == |m.items| - 1 then 0 else m.selectedItemId + 1))
  {
  }

  /** Down undoes Up. */
  lemma DownUndoesUp(m: Menu)
    requires Valid(m)
    ensures Move(m, UpArrow).Ok? && Move(Move(m, UpArrow).value, DownArrow) == Ok(m)
  {
    UpWrapsAround(m);
    DownWrapsAround(Move(m, UpArrow).value);
  }

  /** Up undoes Down. */
  lemma UpUndoesDown(m: Menu)
    requires Valid(m)
    ensures Move(m, DownArrow).Ok? && Move(Move(m, DownArrow).value, UpArrow) == Ok(m)
  {
    DownWrapsAround(m);
    UpWrapsAround(Move(m, DownArrow).value);
  }

  /** Enter: the value whose display name is the selected item. */
  function Select(e: EnumType, m: Menu): (r: Result<Option<int>, MenuError>)
    ensures r.Err? <==> !Valid(m)
    ensures r.Ok? ==> r.value == GetValueFromMenuDisplayName(e, m.items[m.selectedItemId])
  {
    if 0 <= m.selectedItemId < |m.items| then Ok(GetValueFromMenuDisplayName(e, m.items[m.selectedItemId]))
    else Err(ArgumentOutOfRange)
  }

  /** How HandleMenuMovement ends: a value chosen with Enter (null when no
      enum value displays the selected item), an exception, or still
      waiting for a key when the given keys ran out. */
  datatype MovementResult =
    | Chosen(value: Option<int>, menu: Menu)
    | Failed(error: MenuError)
    | AwaitingKey(menu: Menu)

  /** The keys are read one at a time until Enter. */
  function Movement(e: EnumType, m: Menu, keys: seq<Key>): MovementResult
    decreases |keys|
  {
    if |keys| == 0 then AwaitingKey(m)
    else match Move(m, keys[0])
      case Err(error) => Failed(error)
      case Ok(next) =>
        if keys[0] != Enter then Movement(e, next, keys[1..])
        else match Select(e, next)
          case Err(error) => Failed(error)
          case Ok(value) => Chosen(value, next)
  }

  /** HandleMenuMovement over a sequence of key presses. */
  method HandleMenuMovement(e: EnumType, m: Menu, keys: seq<Key>) returns (result: MovementResult)
    ensures result == Movement(e, m, keys)
    ensures result.Chosen? ==> Valid(result.menu) && result.menu.items == m.items
    ensures result.Chosen? ==> result.value == GetValueFromMenuDisplayName(e, m.items[result.menu.selectedItemId])
  {
    var current := m;
    var i := 0;
    result := AwaitingKey(m);
    while i < |keys|
      invariant 0 <= i <= |keys|
      invariant current.items == m.items
      invariant Movement(e, m, keys) == Movement(e, current, keys[i..])
      decreases |keys| - i
    {
      assert keys[i..][1..] == keys[i + 1..];
      var key := keys[i];
      var moved := Move(current, key);
      if moved.Err? {
        return Failed(moved.error);
      }
      current := moved.value;
      if key == Enter {
        var selected := Select(e, current);
        if selected.Err? {
          return Failed(selected.error);
        }
        return Chosen(selected.value, current);
      }
      i := i + 1;
    }
    return AwaitingKey(current);
  }

  /** With at least one item, no key sequence throws and the selection stays in range. */
  lemma {:induction false} NavigationStaysInRange(e: EnumType, m: Menu, keys: seq<Key>)
    requires Valid(m)
    ensures !Movement(e, m, keys).Failed?
    ensures Movement(e, m, keys).Chosen? ==> Valid(Movement(e, m, keys).menu)
    ensures Movement(e, m, keys).AwaitingKey? ==> Valid(Movement(e, m, keys).menu)
    decreases |keys|
  {
    if |keys| > 0 && keys[0] != Enter {
      NavigationStaysInRange(e, Move(m, keys[0]).value, keys[1..]);
    }
  }

  /** On an empty item list, whatever the selection (an Up leaves it at -1),
      Down divides by zero and Enter indexes out of range. */
  lemma EmptyMenuThrows(e: EnumType, m: Menu, rest: seq<Key>)
    requires m.items == []
    ensures Movement(e, m, [DownArrow] + rest) == Failed(DivideByZero)
    ensures Movement(e, m, [Enter] + rest) == Failed(ArgumentOutOfRange)
  {
  }

  /** Choosing the Exit item yields the value displayed as "Exit", which is
      null unless some value of the enum carries that display name. */
  lemma ExitItemChoice(e: EnumType)
    ensures var m := NewMenu(e, true);
            Select(e, m.(selectedItemId := |m.items| - 1)) == Ok(GetValueFromMenuDisplayName(e, ExitItemDisplayName))
    ensures (forall i :: 0 <= i < |e| ==> e[i].menuDisplayName != Some(ExitItemDisplayName)) ==>
              GetValueFromMenuDisplayName(e, ExitItemDisplayName) == None
  {
  }
}

=== FILE: messages.dfy ===
/** The message payloads exchanged by senders and receivers, the type tags
    that route them, and the replies a receiver publishes. */
module Messages {
  import opened Common

  datatype SimpleMessage = SimpleMessage(text: string)

  datatype AdvancedMessageAddress = AdvancedMessageAddress(
    streetName: string, buildingNumber: int, city: string, postalCode: string, country: string)

  datatype AdvancedMessage = AdvancedMessage(
    name: string, surname: string, age: int, email: string, description: string,
    address: AdvancedMessageAddress)

  /** A send-only message that simulates failures: attempts fail with
      `exceptionText` until attempt `succeedOn`; 0 or less never succeeds. */
  datatype ExceptionMessage = ExceptionMessage(exceptionText: string, succeedOn: int)

  /** A request for the surface area and volume of a prism, carrying the
      same failure simulation as an exception message. */
  datatype RectangularPrismRequest = RectangularPrismRequest(
    edgeA: real, edgeB: real, edgeC: real, exceptionText: string, succeedOn: int)

  datatype RectangularPrismResponse = RectangularPrismResponse(surfaceArea: real, volume: real)

  /** A request that makes the receiver wait before it replies. */
  datatype ProcessTimeoutRequest = ProcessTimeoutRequest(millisecondsTimeout: int, processName: string)

  datatype ProcessTimeoutResponse = ProcessTimeoutResponse(processName: string)

  /** The terminal reply sent when a request exhausted its delivery attempts. */
  datatype ExceptionResponse = ExceptionResponse(text: string)

  /** Text of the terminal reply every receiver sends for an exhausted prism request. */
  const NoResponseText: string := "No response found for: RectangularPrismResponse!"

  // Type tags: the Description of each MessageType value. Tags of the values
  // that only appear at call sites are taken to equal their names, as the
  // descriptions of all other values do.
  const SimpleMessageType: string := "SimpleMessage"
  const AdvancedMessageType: string := "AdvancedMessage"
  const ExceptionMessageType: string := "ExceptionMessage"
  const RectangularPrismWaitRequestType: string := "RectangularPrismWaitRequest"
  const RectangularPrismNoWaitRequestType: string := "RectangularPrismNoWaitRequest"
  const RectangularPrismResponseType: string := "RectangularPrismResponse"
  const ProcessTimeoutWaitRequestType: string := "ProcessTimeoutWaitRequest"
  const ProcessTimeoutNoWaitRequestType: string := "ProcessTimeoutNoWaitRequest"
  const ProcessTimeoutResponseType: string := "ProcessTimeoutResponse"
  const ExceptionResponseType: string := "ExceptionResponse"

  /** A message body, represented by what the JSON deserializer yields when
      the body is read as each payload type. */
  datatype Body = Body(
    advanced: Json<AdvancedMessage>,
    exception: Json<ExceptionMessage>,
    prismRequest: Json<RectangularPrismRequest>,
    timeoutRequest: Json<ProcessTimeoutRequest>,
    prismResponse: Json<RectangularPrismResponse>,
    timeoutResponse: Json<ProcessTimeoutResponse>,
    exceptionResponse: Json<ExceptionResponse>)

  /** A reply a receiver sends back to the requester. */
  datatype Reply =
    | PrismReply(prism: RectangularPrismResponse)
    | TimeoutReply(timeout: ProcessTimeoutResponse)
    | ExceptionReply(failure: ExceptionResponse)

  /** The type tag a reply travels under. */
  function ReplyType(reply: Reply): string
  {
    match reply
    case PrismReply(_) => RectangularPrismResponseType
    case TimeoutReply(_) => ProcessTimeoutResponseType
    case ExceptionReply(_) => ExceptionResponseType
  }

  /** The terminal reply for an exhausted prism request. */
  const NoResponseReply: Reply := ExceptionReply(ExceptionResponse(NoResponseText))
}

=== FILE: nservicebus_receiver.dfy ===
/** The NServiceBus receiver's message handlers. NServiceBus creates a
    handler per message, so the exception-message handler and the
    prism-request handler each keep their own static delivery-count map,
    keyed by the context's MessageId. A handler either completes (with at
    most one reply) or throws, and every throw goes to the recoverability
    policy. Deserialization is done by NServiceBus and left out: handlers
    receive decoded messages. */
module NServiceBusReceiver {
  import opened Common
  import opened Messages
  import opened Handlers
  import opened DeliveryCounts

  /** Ceiling on delivery attempts, the same in both counting handlers. */
  const MaxNumberOfDeliveryCounts: int := 10

  /** The recoverability actions NServiceBus offers a custom policy. */
  datatype RecoverabilityAction = ImmediateRetry | DelayedRetry | MoveToError | Discard

  /** The custom recoverability policy of both endpoints: retry at once, whatever the error. */
  function ErrorHandler(fault: Fault): RecoverabilityAction
  {
    ImmediateRetry
  }

  /** The messages the endpoints handle, each routed to its handler class. */
  datatype IncomingMessage =
    | Simple(simple: SimpleMessage)
    | Advanced(advanced: AdvancedMessage)
    | Exception(exception: ExceptionMessage)
    | PrismRequest(prism: RectangularPrismRequest)
    | TimeoutRequest(timeout: ProcessTimeoutRequest)

  /** The two static maps, one per counting handler class. */
  datatype HandlerState = HandlerState(exceptionCounts: Counts, prismCounts: Counts)

  /** A handler completes, replying at most once, or throws and the error
      handler picks a recoverability action. */
  datatype HandlerOutcome =
    | Completed(reply: Option<Reply>)
    | Failed(fault: Fault, action: RecoverabilityAction)

  datatype Step = Step(outcome: HandlerOutcome, state: HandlerState)

  function Completion(handled: Handled<Option<Reply>>): HandlerOutcome
  {
    match handled
    case Returned(reply) => Completed(reply)
    case Threw(fault) => Failed(fault, ErrorHandler(fault))
  }

  /** NServiceBusExceptionMessageHandler.Handle: at the ceiling it returns
      without running ExceptionMessageHandler; otherwise the handler's
      result is ignored and only a throw matters. */
  function ExceptionMessageHandler(message: ExceptionMessage, messageId: string, counts: Counts)
    : (r: (HandlerOutcome, Counts))
    ensures r.1 == Observe(counts, messageId).counts
    ensures r.0.Failed? <==>
              Next(counts, messageId) < MaxNumberOfDeliveryCounts && SimulatesFailure(message.succeedOn, Next(counts, messageId))
    ensures r.0.Failed? ==> r.0 == Failed(Simulated(message.exceptionText), ImmediateRetry)
    ensures r.0.Completed? ==> r.0.reply.None?
  {
    var o := Observe(counts, messageId);
    if MaxNumberOfDeliveryCounts <= o.deliveryCount then (Completed(None), o.counts)
    else match HandleExceptionMessage(Some(message), o.deliveryCount)
      case Threw(fault) => (Completion(Threw(fault)), o.counts)
      case Returned(_) => (Completed(None), o.counts)
  }

  /** NServiceBusRectangularPrismRequestHandler.Handle: at the ceiling it
      replies with the terminal ExceptionResponse without running the
      business handler; otherwise it replies only with a non-null response. */
  function RectangularPrismRequestHandler(request: RectangularPrismRequest, messageId: string, counts: Counts)
    : (r: (HandlerOutcome, Counts))
    ensures r.1 == Observe(counts, messageId).counts
    ensures var attempt := Next(counts, messageId);
            match Evaluate(request.succeedOn, attempt, MaxNumberOfDeliveryCounts)
            case Succeed => r.0 == Completed(Some(PrismReply(Geometry(request))))
            case FailRetryable => r.0 == Failed(Simulated(request.exceptionText), ImmediateRetry)
            case FailExhausted => r.0 == Completed(Some(NoResponseReply))
  {
    var o := Observe(counts, messageId);
    if MaxNumberOfDeliveryCounts <= o.deliveryCount then (Completed(Some(NoResponseReply)), o.counts)
    else match HandleRectangularPrismRequest(Some(request), o.deliveryCount)
      case Threw(fault) => (Completion(Threw(fault)), o.counts)
      case Returned(None) => (Completed(None), o.counts)
      case Returned(Some(response)) => (Completed(Some(PrismReply(response))), o.counts)
  }

  /** Routes a message to its handler class; only the two counting handlers touch state. */
  function Handle(message: IncomingMessage, messageId: string, state: HandlerState): (s: Step)
    ensures !message.Exception? ==> s.state.exceptionCounts == state.exceptionCounts
    ensures !message.PrismRequest? ==> s.state.prismCounts == state.prismCounts
    ensures s.outcome.Failed? ==> s.outcome.action == ImmediateRetry
    ensures s.outcome.Failed? ==> message.Exception? || message.PrismRequest?
    ensures message.Simple? || message.Advanced? ==> s == Step(Completed(None), state)
  {
    match message
    case Simple(_) => Step(Completed(None), state)
    case Advanced(_) => Step(Completed(None), state)   // the advanced handler's verdict is ignored
    case Exception(m) =>
      var (outcome, counts) := ExceptionMessageHandler(m, messageId, state.exceptionCounts);
      Step(outcome, state.(exceptionCounts := counts))
    case PrismRequest(q) =>
      var (outcome, counts) := RectangularPrismRequestHandler(q, messageId, state.prismCounts);
      Step(outcome, state.(prismCounts := counts))
    case TimeoutRequest(q) =>
      match HandleProcessTimeoutRequest(Some(q))
      case None => Step(Completed(None), state)
      case Some(response) => Step(Completed(Some(TimeoutReply(response))), state)
  }

  /** A process-timeout request is always answered with its own process name. */
  lemma TimeoutRequestReplies(q: ProcessTimeoutRequest, messageId: string, state: HandlerState)
    ensures Handle(TimeoutRequest(q), messageId, state)
            == Step(Completed(Some(TimeoutReply(ProcessTimeoutResponse(q.processName)))), state)
  {
  }

  /** The state after the same message has been handled k times in a row,
      as immediate retries deliver it. */
  function Retried(message: IncomingMessage, messageId: string, state: HandlerState, k: nat): HandlerState
  {
    if k == 0 then state else Handle(message, messageId, Retried(message, messageId, state, k - 1)).state
  }

  /** The attempt number a counting handler reads next for a message. */
  function NextAttempt(message: IncomingMessage, messageId: string, state: HandlerState): int
  {
    if message.Exception? then Next(state.exceptionCounts, messageId) else Next(state.prismCounts, messageId)
  }

  /** Retries of one message number its attempts 1, 2, 3, ... in its handler's
      own map, and leave the other handler's map untouched. */
  lemma {:induction false} RetriesNumberAttempts(message: IncomingMessage, messageId: string, state: HandlerState, k: nat)
    requires message.Exception? || message.PrismRequest?
    requires message.Exception? ==> messageId !in state.exceptionCounts
    requires message.PrismRequest? ==> messageId !in state.prismCounts
    ensures NextAttempt(message, messageId, Retried(message, messageId, state, k)) == k + 1
    ensures message.Exception? ==> Retried(message, messageId, state, k).prismCounts == state.prismCounts
    ensures message.PrismRequest? ==> Retried(message, messageId, state, k).exceptionCounts == state.exceptionCounts
  {
    if k > 0 {
      RetriesNumberAttempts(message, messageId, state, k - 1);
    }
  }

  /** The attempt on which an exception message is finally consumed under
      immediate retries: its SucceedOn when that lies below the ceiling,
      otherwise the ceiling itself, where the handler is skipped. */
  function CompletingAttempt(succeedOn: int): int
  {
    if 1 <= succeedOn < MaxNumberOfDeliveryCounts then succeedOn else MaxNumberOfDeliveryCounts
  }

  /** Under immediate retries an exception message fails on every attempt
      before its completing attempt and completes on it, so no message is
      retried more than ten times. */
  lemma ExceptionMessageRetriesUntilCompletion(m: ExceptionMessage, messageId: string, state: HandlerState, k: nat)
    requires messageId !in state.exceptionCounts
    requires k < CompletingAttempt(m.succeedOn)
    ensures var s := Handle(Exception(m), messageId, Retried(Exception(m), messageId, state, k));
            (k + 1 < CompletingAttempt(m.succeedOn) ==> s.outcome == Failed(Simulated(m.exceptionText), ImmediateRetry))
            && (k + 1 == CompletingAttempt(m.succeedOn) ==> s.outcome == Completed(None))
    ensures CompletingAttempt(m.succeedOn) <= MaxNumberOfDeliveryCounts
  {
    RetriesNumberAttempts(Exception(m), messageId, state, k);
  }

  /** Under immediate retries a prism request with SucceedOn = N below the
      ceiling fails on attempts 1..N-1 and is answered with its geometry on
      attempt N; one that never succeeds fails on attempts 1..9 and is
      answered with the terminal ExceptionResponse on attempt 10. */
  lemma PrismRequestRetriesUntilReply(q: RectangularPrismRequest, messageId: string, state: HandlerState, k: nat)
    requires messageId !in state.prismCounts
    requires k < CompletingAttempt(q.succeedOn)
    ensures var s := Handle(PrismRequest(q), messageId, Retried(PrismRequest(q), messageId, state, k));
            && (k + 1 < CompletingAttempt(q.succeedOn) ==> s.outcome == Failed(Simulated(q.exceptionText), ImmediateRetry))
            && (k + 1 == CompletingAttempt(q.succeedOn) ==>
                  s.outcome == Completed(Some(if 1 <= q.succeedOn < MaxNumberOfDeliveryCounts
                                              then PrismReply(Geometry(q)) else NoResponseReply)))
  {
    RetriesNumberAttempts(PrismRequest(q), messageId, state, k);
  }
}

=== FILE: rabbitmq_receiver.dfy ===
/** The RabbitMQ receiver's two consumer callbacks: the send-only consumer
    (simple, advanced and exception messages) and the no-wait request
    consumer (prism and process-timeout requests). One delivery-count map,
    keyed by MessageId, is shared by both. Acknowledging, rejecting and
    publishing are returned as values. */
module RabbitMQReceiver {
  import opened Common
  import opened Messages
  import opened Handlers
  import opened DeliveryCounts

  /** Ceiling on delivery attempts of fault-injected messages. */
  const MaxNumberOfDeliveryCounts: int := 10

  /** A delivery as the callbacks read it: its Type, MessageId and ReplyTo properties and its body. */
  datatype Delivery = Delivery(typeTag: string, messageId: string, replyTo: string, body: Body)

  /** Ack, nack with requeue, or neither (the message stays unacknowledged on the channel). */
  datatype Settlement = Ack | NackRequeue | Unsettled

  /** A message published on the default exchange. */
  datatype Publication = Publication(routingKey: string, typeTag: string, reply: Reply)

  /** What a callback does with one delivery; `escaped` is an exception the
      callback does not catch. */
  datatype Outcome = Outcome(settlement: Settlement, published: Option<Publication>, escaped: Option<Fault>)

  /** An outcome and the delivery-count map after it. */
  datatype Step = Step(outcome: Outcome, counts: Counts)

  function Settled(settlement: Settlement): Outcome
  {
    Outcome(settlement, None, None)
  }

  /** A reply to the delivery's ReplyTo queue, typed by its payload, followed by an ack. */
  function Replied(d: Delivery, reply: Reply): Outcome
  {
    Outcome(Ack, Some(Publication(d.replyTo, ReplyType(reply), reply)), None)
  }

  /** The exception-message branch of MessageHandler. Deserialization runs
      inside the try and before the count is touched. */
  function ExceptionMessageDelivery(d: Delivery, counts: Counts): (s: Step)
    ensures d.body.exception.Malformed? ==> s == Step(Settled(NackRequeue), counts)
    ensures !d.body.exception.Malformed? ==> s.counts == Observe(counts, d.messageId).counts
    ensures s.outcome.published.None? && s.outcome.escaped.None?
  {
    if d.body.exception.Malformed? then Step(Settled(NackRequeue), counts)
    else
      var o := Observe(counts, d.messageId);
      if MaxNumberOfDeliveryCounts <= o.deliveryCount then Step(Settled(Unsettled), o.counts)
      else match HandleExceptionMessage(d.body.exception.Nullable(), o.deliveryCount)
        case Threw(_) => Step(Settled(NackRequeue), o.counts)
        case Returned(handled) => Step(Settled(if handled then Ack else Unsettled), o.counts)
  }

  /** The send-only consumer callback. */
  function MessageHandler(d: Delivery, counts: Counts): (s: Step)
    ensures s.outcome.published.None?
    ensures d.typeTag != ExceptionMessageType ==> s.counts == counts
    ensures s.outcome.settlement == Ack ==>
              d.typeTag == SimpleMessageType || d.typeTag == AdvancedMessageType || d.typeTag == ExceptionMessageType
    ensures d.typeTag != SimpleMessageType && d.typeTag != AdvancedMessageType && d.typeTag != ExceptionMessageType
            ==> s == Step(Settled(Unsettled), counts)
  {
    if d.typeTag == SimpleMessageType then Step(Settled(Ack), counts)
    else if d.typeTag == AdvancedMessageType then
      if d.body.advanced.Malformed? then Step(Outcome(Unsettled, None, Some(JsonException)), counts)
      else if AcceptsDecoded(d.body.advanced.Nullable()) then Step(Settled(Ack), counts)
      else Step(Settled(Unsettled), counts)
    else if d.typeTag == ExceptionMessageType then ExceptionMessageDelivery(d, counts)
    else Step(Settled(Unsettled), counts)
  }

  /** Simple messages are always acked. Advanced ones are acked exactly when
      they deserialize to an object; a null body is left unsettled, and a
      malformed one throws out of the callback, its deserialization not
      being inside a try. Neither touches the count. */
  lemma SendOnlyAcks(d: Delivery, counts: Counts)
    ensures d.typeTag == SimpleMessageType ==> MessageHandler(d, counts) == Step(Settled(Ack), counts)
    ensures d.typeTag == AdvancedMessageType ==>
              (MessageHandler(d, counts).outcome.settlement == Ack <==> d.body.advanced.Parsed?)
    ensures d.typeTag == AdvancedMessageType ==>
              MessageHandler(d, counts) == Step(match d.body.advanced
                                                case Parsed(_) => Settled(Ack)
                                                case JsonNull => Settled(Unsettled)
                                                case Malformed => Outcome(Unsettled, None, Some(JsonException)), counts)
  {
  }

  /** The fate of an exception message: the attempt number is consumed
      whether or not the handler throws; at the ceiling the handler is not
      run and the message is neither acked nor nacked; a throw is nacked with
      requeue; a null body is left unsettled; success is acked. */
  lemma ExceptionMessageSettlement(d: Delivery, counts: Counts)
    requires d.typeTag == ExceptionMessageType && !d.body.exception.Malformed?
    ensures var attempt := Next(counts, d.messageId);
            var s := MessageHandler(d, counts);
            && s.counts == counts[d.messageId := attempt + 1]
            && s.outcome.published.None? && s.outcome.escaped.None?
            && (s.outcome.settlement == Unsettled <==> attempt >= MaxNumberOfDeliveryCounts || d.body.exception.JsonNull?)
            && (s.outcome.settlement == NackRequeue <==>
                  attempt < MaxNumberOfDeliveryCounts && d.body.exception.Parsed?
                  && SimulatesFailure(d.body.exception.value.succeedOn, attempt))
            && (s.outcome.settlement == Ack <==>
                  attempt < MaxNumberOfDeliveryCounts && d.body.exception.Parsed?
                  && 1 <= d.body.exception.value.succeedOn <= attempt)
  {
  }

  /** The prism-request branch of RequestHandler. */
  function PrismRequestDelivery(d: Delivery, counts: Counts): (s: Step)
    ensures d.body.prismRequest.Malformed? ==> s == Step(Settled(NackRequeue), counts)
    ensures !d.body.prismRequest.Malformed? ==> s.counts == Observe(counts, d.messageId).counts
    ensures s.outcome.escaped.None?
    ensures !d.body.prismRequest.Malformed? && MaxNumberOfDeliveryCounts <= Next(counts, d.messageId)
            ==> s.outcome == Replied(d, NoResponseReply)
  {
    if d.body.prismRequest.Malformed? then Step(Settled(NackRequeue), counts)
    else
      var o := Observe(counts, d.messageId);
      if MaxNumberOfDeliveryCounts <= o.deliveryCount then Step(Replied(d, NoResponseReply), o.counts)
      else match HandleRectangularPrismRequest(d.body.prismRequest.Nullable(), o.deliveryCount)
        case Threw(_) => Step(Settled(NackRequeue), o.counts)
        case Returned(None) => Step(Settled(Unsettled), o.counts)
        case Returned(Some(response)) => Step(Replied(d, PrismReply(response)), o.counts)
  }

  /** The no-wait request consumer callback. */
  function RequestHandler(d: Delivery, counts: Counts): (s: Step)
    ensures s.outcome.published.Some? ==> s.outcome.settlement == Ack
    ensures s.outcome.published.Some? ==>
              s.outcome.published.value.routingKey == d.replyTo
              && s.outcome.published.value.typeTag == ReplyType(s.outcome.published.value.reply)
    ensures s.outcome.settlement == Ack ==> s.outcome.published.Some?
    ensures d.typeTag != RectangularPrismNoWaitRequestType ==> s.counts == counts
    ensures d.typeTag != RectangularPrismNoWaitRequestType && d.typeTag != ProcessTimeoutNoWaitRequestType
            ==> s == Step(Settled(Unsettled), counts)
  {
    if d.typeTag == RectangularPrismNoWaitRequestType then PrismRequestDelivery(d, counts)
    else if d.typeTag == ProcessTimeoutNoWaitRequestType then
      if d.body.timeoutRequest.Malformed? then Step(Outcome(Unsettled, None, Some(JsonException)), counts)
      else match HandleProcessTimeoutRequest(d.body.timeoutRequest.Nullable())
        case None => Step(Settled(Unsettled), counts)
        case Some(response) => Step(Replied(d, TimeoutReply(response)), counts)
    else Step(Settled(Unsettled), counts)
  }

  /** A decoded prism request is settled by the verdict for its attempt:
      success publishes the geometry, a retryable failure is nacked with
      requeue and publishes nothing, and exhaustion publishes the terminal
      ExceptionResponse without running the handler; every reply goes to
      ReplyTo and precedes the ack. */
  lemma PrismRequestFollowsVerdict(d: Delivery, counts: Counts, request: RectangularPrismRequest)
    requires d.typeTag == RectangularPrismNoWaitRequestType && d.body.prismRequest == Parsed(request)
    ensures var attempt := Next(counts, d.messageId);
            var o := RequestHandler(d, counts).outcome;
            match Evaluate(request.succeedOn, attempt, MaxNumberOfDeliveryCounts)
            case Succeed =>
              o == Outcome(Ack, Some(Publication(d.replyTo, RectangularPrismResponseType, PrismReply(Geometry(request)))), None)
            case FailRetryable => o == Settled(NackRequeue)
            case FailExhausted =>
              o == Outcome(Ack, Some(Publication(d.replyTo, ExceptionResponseType, NoResponseReply)), None)
  {
  }

  /** A prism request whose body is null is left unsettled with nothing
      published, unless it has reached the ceiling. */
  lemma NullPrismRequestUnsettled(d: Delivery, counts: Counts)
    requires d.typeTag == RectangularPrismNoWaitRequestType && d.body.prismRequest.JsonNull?
    requires Next(counts, d.messageId) < MaxNumberOfDeliveryCounts
    ensures RequestHandler(d, counts).outcome == Settled(Unsettled)
  {
  }

  /** A process-timeout request is answered with its own process name on
      ReplyTo and acked; a null body is left unsettled; a malformed body
      throws out of the callback, since its deserialization is not inside a
      try. The count is never touched. */
  lemma TimeoutRequestReplies(d: Delivery, counts: Counts)
    requires d.typeTag == ProcessTimeoutNoWaitRequestType
    ensures var s := RequestHandler(d, counts);
            match d.body.timeoutRequest
            case Parsed(q) =>
              s == Step(Outcome(Ack, Some(Publication(d.replyTo, ProcessTimeoutResponseType,
                          TimeoutReply(ProcessTimeoutResponse(q.processName)))), None), counts)
            case JsonNull => s == Step(Settled(Unsettled), counts)
            case Malformed => s == Step(Outcome(Unsettled, None, Some(JsonException)), counts)
  {
  }

  /** The two consumers of the receiver. */
  datatype Consumer = SendOnlyConsumer | SendAndReplyNoWaitConsumer

  /** One delivery handled by the given consumer. */
  function Receive(consumer: Consumer, d: Delivery, counts: Counts): Step
  {
    match consumer
    case SendOnlyConsumer => MessageHandler(d, counts)
    case SendAndReplyNoWaitConsumer => RequestHandler(d, counts)
  }

  /** A delivery that reads and advances the shared count. */
  predicate Counted(consumer: Consumer, d: Delivery)
  {
    match consumer
    case SendOnlyConsumer => d.typeTag == ExceptionMessageType && !d.body.exception.Malformed?
    case SendAndReplyNoWaitConsumer => d.typeTag == RectangularPrismNoWaitRequestType && !d.body.prismRequest.Malformed?
  }

  /** The ids of the counted deliveries, in order. */
  function CountedIds(deliveries: seq<(Consumer, Delivery)>): seq<string>
    decreases |deliveries|
  {
    if |deliveries| == 0 then []
    else
      var (consumer, d) := deliveries[0];
      (if Counted(consumer, d) then [d.messageId] else []) + CountedIds(deliveries[1..])
  }

  /** Handle deliveries in order, threading the shared map. */
  function ReceiveAll(counts: Counts, deliveries: seq<(Consumer, Delivery)>): Counts
    decreases |deliveries|
  {
    if |deliveries| == 0 then counts
    else ReceiveAll(Receive(deliveries[0].0, deliveries[0].1, counts).counts, deliveries[1..])
  }

  /** Both consumers drive one tracker: after any interleaving of deliveries
      the map is exactly the tracker's after observing the counted ids, so
      per MessageId the attempts run 1, 2, 3, ... across both consumers. */
  lemma {:induction false} ReceiveAllIsOneTracker(counts: Counts, deliveries: seq<(Consumer, Delivery)>)
    ensures ReceiveAll(counts, deliveries) == ObserveAll(counts, CountedIds(deliveries)).1
    decreases |deliveries|
  {
    if |deliveries| > 0 {
      var (consumer, d) := deliveries[0];
      var next := Receive(consumer, d, counts).counts;
      ReceiveAllIsOneTracker(next, deliveries[1..]);
      if Counted(consumer, d) {
        assert next == Observe(counts, d.messageId).counts;
        assert CountedIds(deliveries) == [d.messageId] + CountedIds(deliveries[1..]);
        assert CountedIds(deliveries)[1..] == CountedIds(deliveries[1..]);
      } else {
        assert next == counts;
        assert CountedIds(deliveries) == CountedIds(deliveries[1..]);
      }
    }
  }

  /** The map after the same request has been delivered k times. */
  function Redelivered(d: Delivery, counts: Counts, k: nat): Counts
  {
    if k == 0 then counts else RequestHandler(d, Redelivered(d, counts, k - 1)).counts
  }

  /** Redeliveries of one request number its attempts 1, 2, 3, ... */
  lemma {:induction false} RedeliveryNumbersAttempts(d: Delivery, k: nat)
    requires d.typeTag == RectangularPrismNoWaitRequestType && !d.body.prismRequest.Malformed?
    ensures Next(Redelivered(d, map[], k), d.messageId) == k + 1
  {
    if k > 0 {
      RedeliveryNumbersAttempts(d, k - 1);
    }
  }

  /** A request that succeeds on attempt N below the ceiling is nacked and
      redelivered on attempts 1..N-1, and only attempt N publishes the reply. */
  lemma SucceedOnAttemptN(d: Delivery, request: RectangularPrismRequest, k: nat)
    requires d.typeTag == RectangularPrismNoWaitRequestType && d.body.prismRequest == Parsed(request)
    requires 1 <= request.succeedOn < MaxNumberOfDeliveryCounts
    requires k < request.succeedOn
    ensures var o := RequestHandler(d, Redelivered(d, map[], k)).outcome;
            (k + 1 < request.succeedOn ==> o == Settled(NackRequeue))
            && (k + 1 == request.succeedOn ==> o.published == Some(Publication(d.replyTo, RectangularPrismResponseType, PrismReply(Geometry(request)))))
  {
    RedeliveryNumbersAttempts(d, k);
    PrismRequestFollowsVerdict(d, Redelivered(d, map[], k), request);
  }

  /** A request that never succeeds is nacked on attempts 1..9 and answered
      with the terminal ExceptionResponse on attempt 10. */
  lemma NeverSucceedsGetsTerminalReply(d: Delivery, request: RectangularPrismRequest, k: nat)
    requires d.typeTag == RectangularPrismNoWaitRequestType && d.body.prismRequest == Parsed(request)
    requires request.succeedOn <= 0
    requires k < MaxNumberOfDeliveryCounts
    ensures var o := RequestHandler(d, Redelivered(d, map[], k)).outcome;
            (k + 1 < MaxNumberOfDeliveryCounts ==> o == Settled(NackRequeue))
            && (k + 1 == MaxNumberOfDeliveryCounts ==> o == Replied(d, NoResponseReply))
  {
    RedeliveryNumbersAttempts(d, k);
    PrismRequestFollowsVerdict(d, Redelivered(d, map[], k), request);
  }
}

=== FILE: servicebus.dfy ===
/** The Azure Service Bus transport as both Azure services see it: the
    queues named in the configuration, messages as a processor hands them
    over, and the request and reply messages the services send. A message's
    Subject carries its type tag and its SessionId ties a reply to its
    request. */
module ServiceBus {
  import opened Common
  import opened Messages

  /** The queues of the ConnectionSettings section. Requests travel on the
      receiver queues and replies on the sender queues. */
  datatype Queue =
    | SendOnlyReceiverQueue
    | SendAndReplyWaitReceiverQueue
    | SendAndReplyWaitSenderQueue
    | SendAndReplyNoWaitReceiverQueue
    | SendAndReplyNoWaitSenderQueue

  /** A message as a processor hands it to a handler. DeliveryCount is kept
      by the broker and is 1 on the first delivery. */
  datatype Incoming = Incoming(subject: string, sessionId: string, deliveryCount: int, body: Body)

  /** The messages of the send-only pattern. */
  datatype OneWay =
    | SimpleOneWay(simple: SimpleMessage)
    | AdvancedOneWay(advanced: AdvancedMessage)
    | ExceptionOneWay(exception: ExceptionMessage)

  /** The subject a send-only message travels under. */
  function OneWaySubject(message: OneWay): string
  {
    match message
    case SimpleOneWay(_) => SimpleMessageType
    case AdvancedOneWay(_) => AdvancedMessageType
    case ExceptionOneWay(_) => ExceptionMessageType
  }

  /** The requests of the send-and-reply pattern. */
  datatype Request =
    | PrismRequest(prism: RectangularPrismRequest)
    | TimeoutRequest(timeout: ProcessTimeoutRequest)

  /** The subject a request travels under: its Wait or NoWait type tag. */
  function RequestSubject(request: Request, wait: bool): string
  {
    match request
    case PrismRequest(_) => if wait then RectangularPrismWaitRequestType else RectangularPrismNoWaitRequestType
    case TimeoutRequest(_) => if wait then ProcessTimeoutWaitRequestType else ProcessTimeoutNoWaitRequestType
  }

  /** A request message sent to a queue, in the session the reply is expected in. */
  datatype RequestMessage = RequestMessage(queue: Queue, subject: string, sessionId: string, request: Request)

  /** A reply message sent to a queue, in the session of the request it answers. */
  datatype ReplyMessage = ReplyMessage(queue: Queue, subject: string, sessionId: string, reply: Reply)

  /** A reply mapped to a Service Bus message: typed by its payload, in the request's session. */
  function ReplyOn(queue: Queue, sessionId: string, reply: Reply): ReplyMessage
  {
    ReplyMessage(queue, ReplyType(reply), sessionId, reply)
  }

  /** An incoming message is the delivery of a request message: same subject
      and session, and its body deserializes to the request. */
  predicate DeliveryOfRequest(m: Incoming, r: RequestMessage)
  {
    && m.subject == r.subject
    && m.sessionId == r.sessionId
    && match r.request
       case PrismRequest(q) => m.body.prismRequest == Parsed(q)
       case TimeoutRequest(q) => m.body.timeoutRequest == Parsed(q)
  }

  /** An incoming message is the delivery of a reply message. */
  predicate DeliveryOfReply(m: Incoming, r: ReplyMessage)
  {
    && m.subject == r.subject
    && m.sessionId == r.sessionId
    && match r.reply
       case PrismReply(p) => m.body.prismResponse == Parsed(p)
       case TimeoutReply(t) => m.body.timeoutResponse == Parsed(t)
       case ExceptionReply(x) => m.body.exceptionResponse == Parsed(x)
  }
}
